=== FILE: README.md ===
# Nut codes in Dafny

A model of the nut-code codec. A nut code is a `nut://` URL whose host is the
base64 text of a compact, lossy byte stream describing a food's nutrient
masses. The stream is laid out as follows:

- one version byte (currently 1);
- eight *standard* nutrients, one linear byte each (whole grams, truncated),
  in a fixed order;
- a list of (code, log byte) pairs for the *extended* nutrients whose log byte
  is nonzero. A log byte places a mass between the nutrient's minimum and
  maximum representable masses on a base-2 logarithmic scale.

On decoding, the reserved tag `0xF0` carries a serving mass as a linear byte,
and the result becomes a serving of the decoded food.

The modules follow the structure of the Swift sources:

| file | module | models |
|---|---|---|
| `wrappers.dfy` | `Wrappers` | `byte`, `Option`, `Result` |
| `nutrients.dfy` | `Nutrients` | the `Nutrient` enumeration: raw codes, the standard list, the extended set, representable mass bounds |
| `foods.dfy` | `Foods` | `Food`, `Serving`, `FoodOrServing`, writes through a nutrient's key path |
| `quantize.dfy` | `Quantize` | linear and logarithmic byte quantisation |
| `codec.dfy` | `Codec` | `data(for:)`, `food(for:)`, `standardNutrients`, `extendedNutrients`, the error enumeration |
| `roundtrip.dfy` | `RoundTrip` | what an encode followed by a decode preserves |
| `transport.dfy` | `Transport` | `urlify` and `parse(url:)` around the stream |

Modelling choices:

- **Masses.** Masses are `real`, not `Float`. A food is a map from nutrient to
  mass (absent means 0) plus `totalMass`.
- **Byte conversion.** Swift's `UInt8(_: Float)` truncates toward zero and
  traps unless `-1 < x < 256`. It is `Truncate` with the precondition
  `ByteRepresentable`.
- **Logarithms.** `log2` and `exp2` are a parameter (`LogScale`). The
  properties that need them to behave assume two hypotheses: `log2` is
  increasing (`Log2Increasing`), and `log2` undoes `exp2` (`Log2UndoesExp2`).
- **Extended order.** The source iterates the extended nutrients through an
  unordered `Set`. That order is a parameter `order`, and every theorem holds
  for any `order` that lists each extended nutrient once
  (`EnumeratesExtended`). `ExtendedByCode` is one such order, ascending by
  code.
- **URLs and base64.** URL parsing and base64 are Foundation calls. A URL is a
  record of its scheme and host, and base64 is a parameter pair of functions.
  Round-trip results assume `Base64RoundTrips`.

Two places where the code does not do what it evidently intends:

- `urlify(_: Serving)` appends nothing for the serving mass.
- A body of one to seven bytes traps in `subdata(in: 0..<8)` before the
  length guard that would report `unexpectedEndOfData` can run. An empty
  body gets past the slice, because Foundation's `subdata(in:)` returns
  empty data for an empty receiver, and the guard rejects it.

Both are under "Findings". Each has an as-written member and a corrected
one. `Transport.Parse` and `Codec.FoodFor` implement the intended behaviour:
every short body fails with `unexpectedEndOfData`. `Transport.ParseAsWritten`
and `Codec.FoodForAsWritten` model the code as written, trap included, with
`Codec.Subdata` standing for Foundation's slice. `Transport.UrlifyServing` is
the code as written, and `Transport.UrlifyServingWithMass` is the corrected
encoder.

Out-of-range masses, and negative or NaN extended masses, trap in the
`UInt8` conversion when encoding. The model does not model that crash.
Encoding requires every conversion to succeed (`Encodable`).

## Model

| member | source | states |
|---|---|---|
| Nutrients.Code | NutCodes/Sources/NutCodes/NutCode.swift:167-212 | no contract of its own: the raw value of each case, as listed in the enumeration; see `Nutrients.CodeRoundTrip` and `Nutrients.CodesDistinct` |
| Nutrients.FromCode | NutCodes/Sources/NutCodes/NutCode.swift:167-212 | no contract of its own: `Nutrient(rawValue:)`; see `Nutrients.FromCodeSound` and `Nutrients.FromCodeComplete` |
| Nutrients.CodeRoundTrip | NutCodes/Sources/NutCodes/NutCode.swift:167-212 | the failable initialiser from a raw value recovers every case from its code |
| Nutrients.FromCodeSound | NutCodes/Sources/NutCodes/NutCode.swift:167-212 | `Nutrient(rawValue:)` only returns a case whose raw value is the given byte |
| Nutrients.FromCodeComplete | NutCodes/Sources/NutCodes/NutCode.swift:167-212 | `Nutrient(rawValue: c)` is `n` exactly when `n`'s raw value is `c` |
| Nutrients.CodesDistinct | NutCodes/Sources/NutCodes/NutCode.swift:167-212 | raw values are unique: two cases share a code only if they are the same case |
| Nutrients.NutrientsFromSpec | NutCodes/Sources/NutCodes/NutCode.swift:167-212 | scanning the codes from `c` upward lists exactly the cases coded `c` or above, in ascending code order |
| Nutrients.CatalogComplete | NutCodes/Sources/NutCodes/NutCode.swift:167-212 | `allCases` as listed by code: every case once, codes strictly ascending |
| Nutrients.StandardCodes | NutCodes/Sources/NutCodes/NutCode.swift:214-216 | the standard nutrients are exactly those whose code lies in 1..8 |
| Nutrients.StandardCodesListed | NutCodes/Sources/NutCodes/NutCode.swift:214-216 | the standard list holds the case coded `k` at position `k - 1` |
| Nutrients.StandardAscend | NutCodes/Sources/NutCodes/NutCode.swift:214-216 | the standard list is in ascending code order |
| Nutrients.StandardExtendedPartition | NutCodes/Sources/NutCodes/NutCode.swift:214-220 | the standard list has no repeats; standard and extended are disjoint and together cover every case; the extended set is exactly the non-standard cases |
| Nutrients.ReservedCodeFree | NutCodes/Sources/NutCodes/NutCode.swift:61 | no nutrient uses the serving tag `0xF0`, and no extended code equals a standard code |
| Nutrients.WithoutStandardSpec | NutCodes/Sources/NutCodes/NutCode.swift:218-220 | subtracting the standard nutrients from an ascending list keeps exactly its extended members, still ascending |
| Nutrients.ExtendedByCodeEnumerates | NutCodes/Sources/NutCodes/NutCode.swift:218-220 | the catalog minus the standard list is a valid visiting order of the extended set, ascending by code |
| Nutrients.MinimumRepresentableMass | NutCodes/Sources/NutCodes/NutCode.swift:400-467 | no contract of its own: the per-nutrient minimum of the source's table, 1 g by default; see `Nutrients.MassBounds` |
| Nutrients.MassBounds | NutCodes/Sources/NutCodes/NutCode.swift:400-471 | every nutrient's minimum representable mass is positive and below its maximum, which is 255 g |
| Foods.Food.WithMass | NutCodes/Sources/NutCodes/NutCode.swift:311-398 | writing through a key path sets that nutrient's field and no other; `totalMass` is unchanged |
| Foods.NewFood | NutCodes/Sources/NutCodes/Food.swift:83-87 | `Food(fat:carbohydrates:protein:)` sets those three fields; every other field is 0 and `totalMass` is 100 |
| Foods.EmptyFood | NutCodes/Sources/NutCodes/Food.swift:15-88 | `Food(fat: 0, carbohydrates: 0, protein: 0)` has every mass 0 and `totalMass` 100 |
| Foods.NewServing | NutCodes/Sources/NutCodes/Food.swift:90-95 | the serving memberwise initialiser defaults the description to "Serving" and the count to 1 |
| Foods.Assign | NutCodes/Sources/NutCodes/NutCode.swift:71-73 | no contract of its own: the `forEach` storing each write through its key path; see `Foods.AssignLastWins` |
| Foods.AssignLastWins | NutCodes/Sources/NutCodes/NutCode.swift:71-73 | after the `forEach` of key-path writes, each field holds the mass of the last write naming it, or its old value if none does; `totalMass` is untouched |
| Foods.AssignUntouched | NutCodes/Sources/NutCodes/NutCode.swift:71-73 | a field that no write names keeps its value |
| Foods.AssignLastWrite | NutCodes/Sources/NutCodes/NutCode.swift:71-73 | a field takes the mass of the last write that names it |
| Foods.AssignKeepsTotal | NutCodes/Sources/NutCodes/NutCode.swift:71-73 | key-path writes never change `totalMass` |
| Foods.AssignConcat | NutCodes/Sources/NutCodes/NutCode.swift:71 | writing the standard list and then the extended list is the same as writing their concatenation |
| Quantize.Truncate | NutCodes/Sources/NutCodes/NutCode.swift:136 | the integer `UInt8(_:)` produces: the largest integer not above a nonnegative input, the smallest not below a negative one |
| Quantize.LinearMass | NutCodes/Sources/NutCodes/NutCode.swift:131-133 | a linear byte reads as a mass between 0 and 255 g whose whole part is the byte |
| Quantize.LinearByte | NutCodes/Sources/NutCodes/NutCode.swift:135-137 | a nonnegative mass becomes the whole grams it contains; a mass in (-1, 0) becomes 0 |
| Quantize.LinearByteRoundTrip | NutCodes/Sources/NutCodes/NutCode.swift:131-137 | linear decoding followed by linear encoding is the identity on bytes |
| Quantize.LinearMassRoundTrip | NutCodes/Sources/NutCodes/NutCode.swift:131-137 | encoding a mass in [0, 256) and decoding it gives the mass rounded down to whole grams |
| Quantize.LogByte | NutCodes/Sources/NutCodes/NutCode.swift:145-153 | zero mass gives the sentinel byte 0; a positive mass gives its scaled log fraction (log-scale fraction times 255), truncated; it is defined only where the source does not trap; see `Quantize.LogByteBounds` and `Quantize.LogByteRoundTrip` |
| Quantize.LogMass | NutCodes/Sources/NutCodes/NutCode.swift:139-143 | no contract of its own: `exp2` of the byte's log-scale position; see `Quantize.LogMassOfZero` and `Quantize.LogByteRoundTrip` |
| Quantize.LogMassOfZero | NutCodes/Sources/NutCodes/NutCode.swift:139-143 | with exact, increasing logarithms, byte 0 reads back as the nutrient's minimum representable mass, which is positive, never as 0 |
| Quantize.Log2Injective | NutCodes/Sources/NutCodes/NutCode.swift:142 | an increasing `log2` sends distinct positive masses to distinct values |
| Quantize.LogSpanPositive | NutCodes/Sources/NutCodes/NutCode.swift:150 | with an increasing `log2`, the log-scale denominator is positive for every nutrient |
| Quantize.LogByteBounds | NutCodes/Sources/NutCodes/NutCode.swift:145-153 | a mass inside the nutrient's range has a log byte; the minimum maps to 0x00 and the maximum to 0xFF |
| Quantize.LogByteBetween | NutCodes/Sources/NutCodes/NutCode.swift:145-153 | the same bounds, given the ordering of the three logarithms directly |
| Quantize.LogByteRoundTrip | NutCodes/Sources/NutCodes/NutCode.swift:139-153 | with exact `log2`/`exp2`, the log byte of a log byte's mass is that byte |
| Quantize.LogByteOfPosition | NutCodes/Sources/NutCodes/NutCode.swift:139-153 | the same round trip, given the one `exp2`/`log2` instance it needs |
| Codec.BytePairs | NutCodes/Sources/NutCodes/NutCode.swift:93-100 | pairing bytes succeeds exactly on an even count, reproduces the bytes when flattened, and otherwise fails with `unexpectedEndOfData` |
| Codec.BytePairsFlatten | NutCodes/Sources/NutCodes/NutCode.swift:93-100 | pairing the flattened pairs gives back the same pairs |
| Codec.FlattenAppend | NutCodes/Sources/NutCodes/NutCode.swift:126 | joining two pair lists is joining their concatenation |
| Codec.StandardBytes | NutCodes/Sources/NutCodes/NutCode.swift:116-118 | one linear byte per standard nutrient, in standard order |
| Codec.ExtendedPairs | NutCodes/Sources/NutCodes/NutCode.swift:120-124 | the `compactMap` over the visiting order: at most one pair per visited nutrient; what it emits is stated by `Codec.ExtendedPairSound`, `Codec.ExtendedPairsComplete` and `Codec.EmittedPairs` |
| Codec.ExtendedPairSound | NutCodes/Sources/NutCodes/NutCode.swift:120-124 | every emitted pair is an extended nutrient of the visiting order, tagged with its code, carrying its nonzero log byte |
| Codec.ExtendedPairsComplete | NutCodes/Sources/NutCodes/NutCode.swift:120-124 | every nutrient of the visiting order with a nonzero log byte is emitted |
| Codec.Encode | NutCodes/Sources/NutCodes/NutCode.swift:111-129 | no contract of its own: `data(for:)`; see `Codec.EncodedLayout` and `RoundTrip.DecodeEncodedFood` |
| Codec.EncodedStandardAt | NutCodes/Sources/NutCodes/NutCode.swift:116-118 | stream byte 1 + k is the linear byte of the k-th standard nutrient |
| Codec.EncodedPairsSegment | NutCodes/Sources/NutCodes/NutCode.swift:111-129 | the stream is 9 + 2k bytes with version 1 first, and after the standard bytes it pairs up into exactly the extended pairs |
| Codec.EncodedLayout | NutCodes/Sources/NutCodes/NutCode.swift:111-129 | the stream is 9 + 2k bytes: version 1, the eight standard linear bytes in order, then the k extended pairs |
| Codec.EmittedPairs | NutCodes/Sources/NutCodes/NutCode.swift:120-126 | emitted tags are distinct, never standard and never 0xF0; values are nonzero; an extended nutrient is absent exactly when its log byte is 0, so a zero mass is never written |
| Codec.DistinctTags | NutCodes/Sources/NutCodes/NutCode.swift:120-124 | a duplicate-free visiting order emits no tag twice |
| Codec.StandardNutrients | NutCodes/Sources/NutCodes/NutCode.swift:82-90 | succeeds exactly on eight bytes, giving the i-th standard nutrient the linear mass of byte i; otherwise `unexpectedEndOfData` |
| Codec.ReadPair | NutCodes/Sources/NutCodes/NutCode.swift:59-66 | no contract of its own: the dispatch of one pair; see `Codec.ReadPairDispatch` |
| Codec.ExtendedNutrients | NutCodes/Sources/NutCodes/NutCode.swift:92-109 | `extendedNutrients(from:)` after pairing: at most one write per pair; which writes is stated by `Codec.ExtendedNutrientsLastWins` |
| Codec.ServingSize | NutCodes/Sources/NutCodes/NutCode.swift:53-66 | no contract of its own: the serving-size capture; see `Codec.ServingSizeLast` |
| Codec.Assemble | NutCodes/Sources/NutCodes/NutCode.swift:70-79 | no contract of its own: filling the food and wrapping a serving; see `Codec.AssembleShape` |
| Codec.ReadPairDispatch | NutCodes/Sources/NutCodes/NutCode.swift:59-68 | a nutrient's code gives that nutrient's log mass; 0xF0 gives a serving mass; any other code is ignored |
| Codec.ServingSizeLast | NutCodes/Sources/NutCodes/NutCode.swift:53-66 | the captured serving mass is that of the last 0xF0 pair, or none if there is none |
| Codec.ExtendedNutrientsLastWins | NutCodes/Sources/NutCodes/NutCode.swift:97-108 | after the extended writes, a field holds the log mass of the last pair with its code, or its old value if no pair has it |
| Codec.ExtendedNutrientsConcat | NutCodes/Sources/NutCodes/NutCode.swift:97-108 | the writes of concatenated pair lists are the concatenated writes |
| Codec.ServingSizeConcat | NutCodes/Sources/NutCodes/NutCode.swift:53-66 | the serving capture over concatenated lists continues from the first list's result |
| Codec.UnknownPairIgnored | NutCodes/Sources/NutCodes/NutCode.swift:102-106 | inserting a pair with an unknown code anywhere leaves the decoded result unchanged |
| Codec.FoodFor | NutCodes/Sources/NutCodes/NutCode.swift:52-90 | succeeds exactly when the body has at least eight bytes and an even remainder; otherwise `unexpectedEndOfData`; a result always has `totalMass` 100 |
| Codec.Subdata | NutCodes/Sources/NutCodes/NutCode.swift:55-58 | Foundation's `subdata(in:)` as the decoder uses it: an in-bounds range gives that slice; an empty receiver or empty range gives empty data; a range with `hi < lo`, or a non-empty one past the end of non-empty data, traps |
| Codec.FoodForAsWritten | NutCodes/Sources/NutCodes/NutCode.swift:52-58 | as written, `food(for:)` traps exactly on bodies of one to seven bytes and otherwise returns what `FoodFor` returns |
| Codec.ShortBodyTraps | NutCodes/Sources/NutCodes/NutCode.swift:55-56 | as written, the standard slice traps exactly on bodies of one to seven bytes, all of which `FoodFor` answers with `unexpectedEndOfData`; the empty body reaches the length guard at line 83 and fails with `unexpectedEndOfData`; any other failure comes from an odd extended segment |
| Codec.OneByteBodyTraps | NutCodes/Sources/NutCodes/NutCode.swift:55-56 | the one-byte body `00` traps as written where `FoodFor` reports `unexpectedEndOfData`; the empty body fails with `unexpectedEndOfData` in both |
| Codec.StandardFill | NutCodes/Sources/NutCodes/NutCode.swift:70-73 | after the standard writes, each standard field holds its byte's linear mass, each extended field 0, and `totalMass` 100 |
| Codec.DecodedKind | NutCodes/Sources/NutCodes/NutCode.swift:52-80 | a well-formed body decodes to a plain food exactly when it has no 0xF0 pair; otherwise to a serving of the last 0xF0 pair's linear mass with the default description and count |
| Codec.DecodedMasses | NutCodes/Sources/NutCodes/NutCode.swift:52-109 | the decoded masses: a standard field without a pair is its linear byte's mass; an extended field without a pair is 0; a field with pairs takes the last one's log mass |
| Codec.AssembleShape | NutCodes/Sources/NutCodes/NutCode.swift:70-79 | the assembled food is the extended writes after the standard writes over a zero food, wrapped as a serving exactly when a serving mass was captured |
| RoundTrip.DecodeEncodedFood | NutCodes/Sources/NutCodes/NutCode.swift:52-129 | decoding an encoded food gives a plain food with `totalMass` 100; standard masses are truncated to whole grams and extended masses are read back from their log bytes |
| RoundTrip.EncodedBodyPairs | NutCodes/Sources/NutCodes/NutCode.swift:111-129 | after the version byte an encoded stream is the eight standard bytes followed by exactly the emitted pairs |
| RoundTrip.EncodedStandardByte | NutCodes/Sources/NutCodes/NutCode.swift:116-118 | body byte k is the linear byte of the k-th standard nutrient, and reads back as its truncated mass |
| RoundTrip.ExtendedPairsDependOnBytes | NutCodes/Sources/NutCodes/NutCode.swift:120-124 | two foods whose log bytes agree along the visiting order emit the same pairs |
| RoundTrip.ReencodeDecoded | NutCodes/Sources/NutCodes/NutCode.swift:52-153 | with exact logarithms, a decoded food can be encoded again and, along the same visiting order of the extended nutrients, gives the same bytes |
| RoundTrip.LinearByteOfTruncation | NutCodes/Sources/NutCodes/NutCode.swift:135-137 | a mass and its whole-gram truncation have the same linear byte |
| Transport.Urlify | NutCodes/Sources/NutCodes/NutCode.swift:18-20 | no contract of its own: `urlify(_: Food)`; see `Transport.ParseUrlifyFood` |
| Transport.UrlifyServing | NutCodes/Sources/NutCodes/NutCode.swift:22-26 | no contract of its own: `urlify(_: Serving)` as written; see `Transport.ServingEncodingIgnoresServing` |
| Transport.UrlifyServingWithMass | NutCodes/Sources/NutCodes/NutCode.swift:22-26 | no contract of its own: the corrected `urlify(_: Serving)`; see `Transport.ParseUrlifyServingWithMass` |
| Transport.Parse | NutCodes/Sources/NutCodes/NutCode.swift:28-50 | checks in order: scheme `nut` (`invalidScheme`), a host (`missingData`), base64 (`base64DecodingError`), a first byte (`missingVersion`), version at most 1 (`unrecognizedVersion`), then decodes the rest; never `internalInconsistency` or `unrecognizedNutrientCode` |
| Transport.ParseAsWritten | NutCodes/Sources/NutCodes/NutCode.swift:28-58 | as written, `parse(url:)` traps exactly when the decoded stream has an accepted version followed by one to seven bytes, and otherwise returns what `Parse` returns |
| Transport.ParseTrapsOnShortBody | NutCodes/Sources/NutCodes/NutCode.swift:41-58 | as written, parsing traps exactly when an accepted version is followed by one to seven bytes, where `Parse` reports `unexpectedEndOfData`; a version byte alone fails with `unexpectedEndOfData` as written too |
| Transport.OneByteBodyUrlTraps | NutCodes/Sources/NutCodes/NutCode.swift:41-58 | the stream `01 00` (base64 `AQA=`) traps as written, and `Parse` rejects it with `unexpectedEndOfData` |
| Transport.VersionsAccepted | NutCodes/Sources/NutCodes/NutCode.swift:45-49 | version bytes 0 and 1 are both accepted, and the rest of the stream decides the result |
| Transport.ParseVersioned | NutCodes/Sources/NutCodes/NutCode.swift:37-49 | the URL of any stream starting with an accepted version parses to the decoding of the rest |
| Transport.ParseEncoded | NutCodes/Sources/NutCodes/NutCode.swift:18-50 | parsing a food's URL decodes that food's body |
| Transport.ParseUrlifyFood | NutCodes/Sources/NutCodes/NutCode.swift:18-50 | parsing a food's URL gives a plain food: standard masses truncated, extended masses read back, `totalMass` 100 |
| Transport.ServingEncodingIgnoresServing | NutCodes/Sources/NutCodes/NutCode.swift:22-26 | as written, a serving's URL equals its food's URL, and it parses back as a plain food |
| Transport.ParseUrlifyServingWithMass | NutCodes/Sources/NutCodes/NutCode.swift:22-26 | with the serving pair written, parsing gives a serving of the decoded food, its mass truncated to whole grams, with the default description and count |
| Transport.ParseServingUrl | NutCodes/Sources/NutCodes/NutCode.swift:22-26 | a serving URL parses as the food's body followed by the serving pair |
| Transport.ServingPairAppended | NutCodes/Sources/NutCodes/NutCode.swift:59-79 | appending a 0xF0 pair to a well-formed body turns the same decoded food into a serving of that pair's linear mass |
| Transport.ServingLocalFieldsNotEncoded | NutCodes/Sources/NutCodes/Food.swift:90-95 | a serving's description and count never affect its URL |

## Left out

- Floating point. Masses are exact reals. Some rounding is not modelled:
  the `Float` literals of `minimumRepresentableMass` (such as 0.001, which
  has no exact binary value), the results of `log2` and `exp2`, and the
  divisions and multiplications of the log scale. So the log round trips
  hold only under the hypotheses on `LogScale`. `Float(UInt8)` is exact and
  needs no such caveat.
- Codec.Subdata: follows the `subdata(in:)` of Swift 5 and later
  Foundation, which returns empty data for an empty receiver or an empty
  range before any bounds check. Swift 4's Foundation checked the range
  first, and there the empty body trapped as well.
- The `log2`/`exp2` implementations. They are a parameter. The formula around
  them is modelled exactly.
- NaN and infinities. They have no counterpart among reals. Where the source
  would produce NaN (`log2` of a negative extended mass), it then traps in
  `UInt8`, and `LogByteDefined` excludes that case.
- URL syntax and base64. `URL(string:)` and `Data(base64Encoded:)` are
  Foundation calls, so they are parameters.
- Transport.NutUrl: assumes the whole base64 text reads back as the URL's
  host, which URL syntax does not give. Base64 text can contain `/`, and a
  `/` ends the host. For example, `NewFood(0, 63, 0)` encodes to the bytes
  `01 00 3F 00 00 00 00 00 00`, whose base64 text is `AQA/AAAAAAAA`. The
  host of `nut://AQA/AAAAAAAA` is `AQA`, which is not a valid base64 stream,
  so `parse` fails on that food's URL. The same happens for 63 g of sugar or
  of polyunsaturated fat. `Transport.ParseUrlifyFood` and the other
  URL-level round trips hold only under this assumption.
- The force unwrap in `urlify`. It is assumed to succeed.
- Traps when converting to `UInt8`. Encoding requires every standard mass
  and every scaled log fraction to be in (-1, 256) (`Encodable`), instead of
  modelling the crash.
- The extended iteration order. `Set` order is unspecified, so it is a
  parameter.
- Nutrient count. The catalog's length (42 cases) is not stated as a lemma;
  completeness and uniqueness of the catalog are.
- `Nutrient.name`. It is the display-name table, which the codec never
  reads.
- Unused errors. `internalInconsistency` and `unrecognizedNutrientCode` are
  declared but never thrown. They are modelled as constructors, and `Parse`
  provably never returns them.
- Test vectors. The concrete byte vectors of the test suite depend on
  floating-point `log2`/`exp2` and are not restated.
- Mutation. `Food` is an immutable value and key-path writes are functional
  updates.
- Codec.ExtendedPairs: its own contract states only the length bound. What
  it emits is stated by `ExtendedPairSound`, `ExtendedPairsComplete` and
  `EmittedPairs`.
- RoundTrip.ReencodeDecoded: equal bytes are promised only when both
  encodes visit the extended nutrients in the same order. The source builds
  `Nutrient.extended` from a `Set` on every call, so a second `data(for:)`
  may visit them in another order. In that case only the set of pairs is
  reproduced (`Codec.EmittedPairs`). The decoded masses do not depend on the
  order (`RoundTrip.DecodeEncodedFood`).
- Quantize.LogByteRoundTrip: holds only under exact logarithms, because
  `Float` arithmetic can move a byte by one.

## Findings

| source | as written | input that shows it | evidently intended | confidence | as-written member | corrected member |
|---|---|---|---|---|---|---|
| NutCodes/Sources/NutCodes/NutCode.swift:55 | the standard segment is sliced with `subdata(in: 0..<8)` before `standardNutrients` checks its length (line 83), so a body of one to seven bytes traps in the slice; the guard fires only on the empty body, which `subdata` returns empty | the stream `01 00` (URL `nut://AQA=`), whose body is the single byte `00` | a short body fails with `unexpectedEndOfData` | not executed | Codec.FoodForAsWritten, Codec.OneByteBodyTraps, Transport.ParseAsWritten, Transport.ParseTrapsOnShortBody, Transport.OneByteBodyUrlTraps | Codec.FoodFor, Transport.Parse |
| NutCodes/Sources/NutCodes/NutCode.swift:22-26 | `urlify(_: Serving)` appends an empty list after the food's bytes, so the serving mass is never written and the URL parses back as a plain food | any serving, e.g. `Serving(food: f, mass: 30)`: its URL equals `urlify(f)` | append the pair (0xF0, linear byte of the serving mass), which `food(for:)` reads back as a serving | not executed | Transport.UrlifyServing, Transport.ServingEncodingIgnoresServing | Transport.UrlifyServingWithMass, Transport.ParseUrlifyServingWithMass |

=== FILE: codec.dfy ===
/** The nut-code byte stream: a version byte, the eight standard nutrients
    at fixed positions, then (code, value) pairs for the extended
    nutrients and for the serving mass. */
module Codec {
  import opened Wrappers
  import opened Nutrients
  import opened Foods
  import opened Quantize

  /** The format version written, and the highest one read. */
  const Version: byte := 1

  /** Every error the codec declares. `InternalInconsistency` and
      `UnrecognizedNutrientCode` are declared but never produced. */
  datatype NutCodeError =
    | InternalInconsistency
    | InvalidScheme
    | MissingData
    | Base64DecodingError
    | MissingVersion
    | UnrecognizedVersion
    | UnexpectedEndOfData
    | UnrecognizedNutrientCode

  /** One tagged entry of the extended segment. */
  datatype BytePair = BytePair(code: byte, value: byte)

  /** The pairs laid end to end, as `joined()` does. */
  function Flatten(pairs: seq<BytePair>): (bytes: seq<byte>)
    ensures |bytes| == 2 * |pairs|
  {
    if |pairs| == 0 then [] else [pairs[0].code, pairs[0].value] + Flatten(pairs[1..])
  }

  /** The decoder's pair iterator: consecutive bytes two at a time. A last
      byte without a partner is an unexpected end of data. */
  function BytePairs(bytes: seq<byte>): (r: Result<seq<BytePair>, NutCodeError>)
    ensures r.Success? <==> |bytes| % 2 == 0
    ensures r.Failure? ==> r.error == UnexpectedEndOfData
    ensures r.Success? ==> Flatten(r.value) == bytes
    decreases |bytes|
  {
    if |bytes| == 0 then Success([])
    else if |bytes| == 1 then Failure(UnexpectedEndOfData)
    else
      var rest :- BytePairs(bytes[2..]);
      var pairs := [BytePair(bytes[0], bytes[1])] + rest;
      assert pairs[1..] == rest;
      Success(pairs)
  }

  /** Pairing up a flattened list gives the list back. */
  lemma {:induction false} BytePairsFlatten(pairs: seq<BytePair>)
    ensures BytePairs(Flatten(pairs)) == Success(pairs)
    decreases |pairs|
  {
    if |pairs| > 0 {
      var bytes := Flatten(pairs);
      assert bytes[2..] == Flatten(pairs[1..]);
      BytePairsFlatten(pairs[1..]);
      assert [pairs[0]] + pairs[1..] == pairs;
    }
  }

  /** Laying out two pair lists end to end is laying out their
      concatenation. */
  lemma {:induction false} FlattenAppend(a: seq<BytePair>, b: seq<BytePair>)
    ensures Flatten(a + b) == Flatten(a) + Flatten(b)
    decreases |a|
  {
    if |a| == 0 {
      assert a + b == b;
    } else {
      assert (a + b)[0] == a[0];
      assert (a + b)[1..] == a[1..] + b;
      FlattenAppend(a[1..], b);
    }
  }

  // ---------------------------------------------------------------------
  // Encoding

  /** Every standard mass converts to a byte without trapping. */
  predicate StandardEncodable(food: Food) {
    forall n :: n in Standard ==> ByteRepresentable(food.Mass(n))
  }

  /** Every nutrient in `order` has a log byte without trapping. */
  predicate ExtendedEncodable(scale: LogScale, food: Food, order: seq<Nutrient>) {
    forall n :: n in order ==> LogByteDefined(scale, n, food.Mass(n))
  }

  /** What `data(for:)` needs of its input: no conversion traps, and the
      extended nutrients visited in some order of the extended set. */
  predicate Encodable(scale: LogScale, food: Food, order: seq<Nutrient>) {
    && StandardEncodable(food)
    && EnumeratesExtended(order)
    && ExtendedEncodable(scale, food, order)
  }

  /** The linear bytes of the standard nutrients, in wire order. */
  function StandardBytes(food: Food): (bytes: seq<byte>)
    requires StandardEncodable(food)
    ensures |bytes| == |Standard|
    ensures forall i :: 0 <= i < |Standard| ==> bytes[i] == LinearByte(food.Mass(Standard[i]))
  {
    seq(|Standard|, i requires 0 <= i < |Standard| && StandardEncodable(food) =>
      LinearByte(food.Mass(Standard[i])))
  }

  /** `p` is the pair the encoder emits for one of the nutrients of
      `order`: that nutrient's code and its nonzero log byte. */
  predicate IsEmittedPair(scale: LogScale, food: Food, order: seq<Nutrient>, p: BytePair) {
    && FromCode(p.code).Some?
    && FromCode(p.code).value in order
    && LogByteDefined(scale, FromCode(p.code).value, food.Mass(FromCode(p.code).value))
    && p.value == LogByte(scale, FromCode(p.code).value, food.Mass(FromCode(p.code).value))
    && p.value != 0
  }

  /** The extended segment: for each nutrient of `order` in turn, its code
      and log byte, skipping the nutrients whose log byte is 0. */
  function ExtendedPairs(scale: LogScale, food: Food, order: seq<Nutrient>): (pairs: seq<BytePair>)
    requires ExtendedEncodable(scale, food, order)
    ensures |pairs| <= |order|
    decreases |order|
  {
    if |order| == 0 then []
    else
      var n := order[0];
      assert forall m :: m in order[1..] ==> m in order;
      var b := LogByte(scale, n, food.Mass(n));
      var rest := ExtendedPairs(scale, food, order[1..]);
      if b != 0 then [BytePair(Code(n), b)] + rest else rest
  }

  /** Every emitted pair is the code and nonzero log byte of a nutrient of
      `order`. */
  lemma {:induction false} ExtendedPairSound(scale: LogScale, food: Food, order: seq<Nutrient>, i: int)
    requires ExtendedEncodable(scale, food, order)
    requires 0 <= i < |ExtendedPairs(scale, food, order)|
    ensures IsEmittedPair(scale, food, order, ExtendedPairs(scale, food, order)[i])
    decreases |order|
  {
    var n := order[0];
    var tail := order[1..];
    assert forall m :: m in tail ==> m in order;
    var b := LogByte(scale, n, food.Mass(n));
    var rest := ExtendedPairs(scale, food, tail);
    if b != 0 && i == 0 {
      CodeRoundTrip(n);
    } else {
      var k := if b != 0 then i - 1 else i;
      assert ExtendedPairs(scale, food, order)[i] == rest[k];
      ExtendedPairSound(scale, food, tail, k);
    }
  }

  /** Every nutrient of `order` with a nonzero log byte is emitted. */
  lemma {:induction false} ExtendedPairsComplete(scale: LogScale, food: Food, order: seq<Nutrient>, n: Nutrient)
    requires ExtendedEncodable(scale, food, order)
    requires n in order && LogByte(scale, n, food.Mass(n)) != 0
    ensures BytePair(Code(n), LogByte(scale, n, food.Mass(n))) in ExtendedPairs(scale, food, order)
    decreases |order|
  {
    if order[0] != n {
      assert forall m :: m in order[1..] ==> m in order;
      ExtendedPairsComplete(scale, food, order[1..], n);
    }
  }

  /** `data(for:)`: version, standard bytes, extended pairs. */
  function Encode(scale: LogScale, food: Food, order: seq<Nutrient>): seq<byte>
    requires Encodable(scale, food, order)
  {
    [Version] + StandardBytes(food) + Flatten(ExtendedPairs(scale, food, order))
  }

  /** The layout of an encoded food: version 1, the eight standard bytes
      in catalog order, then exactly the extended pairs, two bytes each. */
  lemma EncodedLayout(scale: LogScale, food: Food, order: seq<Nutrient>)
    requires Encodable(scale, food, order)
    ensures var bytes := Encode(scale, food, order);
      && |bytes| == 1 + |Standard| + 2 * |ExtendedPairs(scale, food, order)|
      && bytes[0] == Version
      && bytes[1] == LinearByte(food.Mass(FatTotal))
      && bytes[2] == LinearByte(food.Mass(Carbohydrates))
      && bytes[3] == LinearByte(food.Mass(Protein))
      && bytes[4] == LinearByte(food.Mass(Fiber))
      && bytes[5] == LinearByte(food.Mass(Sugar))
      && bytes[6] == LinearByte(food.Mass(FatSaturated))
      && bytes[7] == LinearByte(food.Mass(FatMonounsaturated))
      && bytes[8] == LinearByte(food.Mass(FatPolyunsaturated))
      && BytePairs(bytes[1 + |Standard|..]) == Success(ExtendedPairs(scale, food, order))
  {
    EncodedPairsSegment(scale, food, order);
    EncodedStandardAt(scale, food, order, 0);
    EncodedStandardAt(scale, food, order, 1);
    EncodedStandardAt(scale, food, order, 2);
    EncodedStandardAt(scale, food, order, 3);
    EncodedStandardAt(scale, food, order, 4);
    EncodedStandardAt(scale, food, order, 5);
    EncodedStandardAt(scale, food, order, 6);
    EncodedStandardAt(scale, food, order, 7);
  }

  /** Byte `1 + k` of the stream is the linear byte of the `k`-th standard
      nutrient. */
  lemma EncodedStandardAt(scale: LogScale, food: Food, order: seq<Nutrient>, k: int)
    requires Encodable(scale, food, order) && 0 <= k < |Standard|
    ensures |Encode(scale, food, order)| > 1 + k
    ensures Encode(scale, food, order)[1 + k] == LinearByte(food.Mass(Standard[k]))
  {
    var sb := StandardBytes(food);
    assert Encode(scale, food, order)[1 + k] == sb[k];
  }

  /** After the version and the standard bytes, the stream pairs up into
      exactly the extended pairs. */
  lemma EncodedPairsSegment(scale: LogScale, food: Food, order: seq<Nutrient>)
    requires Encodable(scale, food, order)
    ensures var bytes := Encode(scale, food, order);
      && |bytes| == 1 + |Standard| + 2 * |ExtendedPairs(scale, food, order)|
      && bytes[0] == Version
      && BytePairs(bytes[1 + |Standard|..]) == Success(ExtendedPairs(scale, food, order))
  {
    var bytes := Encode(scale, food, order);
    var pairs := ExtendedPairs(scale, food, order);
    assert bytes[1 + |Standard|..] == Flatten(pairs);
    BytePairsFlatten(pairs);
  }

  predicate NoPairWith(pairs: seq<BytePair>, code: byte) {
    forall i :: 0 <= i < |pairs| ==> pairs[i].code != code
  }

  /** Pair `i` is the last one tagged `code`. */
  predicate IsLastPairWith(pairs: seq<BytePair>, code: byte, i: int) {
    && 0 <= i < |pairs|
    && pairs[i].code == code
    && forall j :: i < j < |pairs| ==> pairs[j].code != code
  }

  /** The extended pairs of any visiting order carry distinct tags, each an
      extended nutrient's code (never a standard code or the serving tag)
      with a nonzero value; an extended nutrient appears exactly when its
      log byte is nonzero, so a zero mass is never written. */
  lemma {:induction false} EmittedPairs(scale: LogScale, food: Food, order: seq<Nutrient>)
    requires Encodable(scale, food, order)
    ensures var pairs := ExtendedPairs(scale, food, order);
      && DistinctCodes(pairs)
      && (forall i :: 0 <= i < |pairs| ==> pairs[i].code != ServingMassCode && pairs[i].value != 0)
      && (forall n :: IsStandard(n) ==> NoPairWith(pairs, Code(n)))
      && (forall n :: IsExtended(n) ==>
            (LogByte(scale, n, food.Mass(n)) == 0 <==> NoPairWith(pairs, Code(n))))
      && (forall n :: IsExtended(n) && food.Mass(n) == 0.0 ==> NoPairWith(pairs, Code(n)))
      && (forall n, i :: IsExtended(n) && IsLastPairWith(pairs, Code(n), i) ==>
            pairs[i].value == LogByte(scale, n, food.Mass(n)))
  {
    var pairs := ExtendedPairs(scale, food, order);
    DistinctTags(scale, food, order);
    forall i | 0 <= i < |pairs| ensures pairs[i].code != ServingMassCode && pairs[i].value != 0 {
      ExtendedPairSound(scale, food, order, i);
      ReservedCodeFree(FromCode(pairs[i].code).value);
      FromCodeSound(pairs[i].code);
    }
    forall n ensures IsStandard(n) ==> NoPairWith(pairs, Code(n)) {
      if IsStandard(n) {
        forall i | 0 <= i < |pairs| ensures pairs[i].code != Code(n) {
          ExtendedPairSound(scale, food, order, i);
          FromCodeComplete(pairs[i].code, n);
        }
      }
    }
    forall n | IsExtended(n)
      ensures LogByte(scale, n, food.Mass(n)) == 0 <==> NoPairWith(pairs, Code(n))
      ensures forall i :: IsLastPairWith(pairs, Code(n), i) ==> pairs[i].value == LogByte(scale, n, food.Mass(n))
    {
      assert n in order;
      if LogByte(scale, n, food.Mass(n)) != 0 {
        ExtendedPairsComplete(scale, food, order, n);
      }
      forall i | 0 <= i < |pairs| && pairs[i].code == Code(n)
        ensures pairs[i].value == LogByte(scale, n, food.Mass(n))
      {
        ExtendedPairSound(scale, food, order, i);
        FromCodeComplete(pairs[i].code, n);
      }
    }
  }

  /** No two pairs carry the same tag. */
  predicate DistinctCodes(pairs: seq<BytePair>) {
    forall i, j :: 0 <= i < j < |pairs| ==> pairs[i].code != pairs[j].code
  }

  /** With a duplicate-free visiting order, no tag is emitted twice. */
  lemma {:induction false} DistinctTags(scale: LogScale, food: Food, order: seq<Nutrient>)
    requires ExtendedEncodable(scale, food, order) && Distinct(order)
    ensures DistinctCodes(ExtendedPairs(scale, food, order))
    decreases |order|
  {
    if |order| > 0 {
      var n := order[0];
      var tail := order[1..];
      assert forall m :: m in tail ==> m in order;
      assert Distinct(tail);
      DistinctTags(scale, food, tail);
      var rest := ExtendedPairs(scale, food, tail);
      forall i | 0 <= i < |rest| ensures rest[i].code != Code(n) {
        ExtendedPairSound(scale, food, tail, i);
        FromCodeComplete(rest[i].code, n);
      }
      var b := LogByte(scale, n, food.Mass(n));
      if b != 0 {
        PrependDistinctCode(BytePair(Code(n), b), rest);
      }
    }
  }

  lemma PrependDistinctCode(head: BytePair, rest: seq<BytePair>)
    requires DistinctCodes(rest) && NoPairWith(rest, head.code)
    ensures DistinctCodes([head] + rest)
  {
    var pairs := [head] + rest;
    forall i, j | 0 <= i < j < |pairs| ensures pairs[i].code != pairs[j].code {
      assert pairs[j] == rest[j - 1];
      if i > 0 {
        assert pairs[i] == rest[i - 1];
      }
    }
  }

  // ---------------------------------------------------------------------
  // Decoding

  /** `standardNutrients(from:)`: exactly eight bytes, read linearly into
      the standard nutrients in wire order. */
  function StandardNutrients(data: seq<byte>): (r: Result<seq<NutrientMass>, NutCodeError>)
    ensures r.Success? <==> |data| == |Standard|
    ensures r.Failure? ==> r.error == UnexpectedEndOfData
    ensures r.Success? ==> |r.value| == |Standard|
    ensures r.Success? ==> forall i :: 0 <= i < |Standard| ==>
      r.value[i] == NutrientMass(Standard[i], LinearMass(data[i]))
  {
    if |data| != |Standard| then Failure(UnexpectedEndOfData)
    else Success(seq(|Standard|, i requires 0 <= i < |data| =>
      NutrientMass(Standard[i], LinearMass(data[i]))))
  }

  /** What the decoder makes of one pair. */
  datatype PairMeaning = NutrientPair(write: NutrientMass) | ServingPair(mass: real) | UnknownPair

  /** A nutrient's code is log-decoded into that nutrient (standard codes
      and water included); the serving tag is a linear serving mass; any
      other code is ignored. */
  function ReadPair(scale: LogScale, p: BytePair): PairMeaning {
    match FromCode(p.code)
    case Some(n) => NutrientPair(NutrientMass(n, LogMass(scale, n, p.value)))
    case None => if p.code == ServingMassCode then ServingPair(LinearMass(p.value)) else UnknownPair
  }

  /** The write one pair contributes to the `compactMap`: one for a
      nutrient pair, none otherwise. */
  function PairWrites(scale: LogScale, p: BytePair): seq<NutrientMass> {
    match ReadPair(scale, p)
    case NutrientPair(w) => [w]
    case _ => []
  }

  /** The nutrient writes among the pairs, in stream order. */
  function ExtendedNutrients(scale: LogScale, pairs: seq<BytePair>): (writes: seq<NutrientMass>)
    ensures |writes| <= |pairs|
    decreases |pairs|
  {
    if |pairs| == 0 then []
    else PairWrites(scale, pairs[0]) + ExtendedNutrients(scale, pairs[1..])
  }

  /** The special-code handler's captured serving mass: each serving pair
      overwrites the value held so far. */
  function ServingSize(scale: LogScale, pairs: seq<BytePair>, current: Option<real>): Option<real>
    decreases |pairs|
  {
    if |pairs| == 0 then current
    else
      var next := match ReadPair(scale, pairs[0]) case ServingPair(m) => Some(m) case _ => current;
      ServingSize(scale, pairs[1..], next)
  }

  /** The shape `food(for:)` accepts: at least the eight standard bytes,
      then whole pairs. */
  predicate WellFormedBody(data: seq<byte>) {
    |data| >= |Standard| && (|data| - |Standard|) % 2 == 0
  }

  /** Fills in a zero food from the standard then the extended writes, and
      wraps it as a serving when a serving mass was captured. */
  function Assemble(scale: LogScale, standard: seq<NutrientMass>, pairs: seq<BytePair>): FoodOrServing {
    var food := Assign(EmptyFood(), standard + ExtendedNutrients(scale, pairs));
    match ServingSize(scale, pairs, None)
    case Some(m) => ServingValue(NewServing(food, m))
    case None => FoodValue(food)
  }

  /** `food(for:)`, the bytes after the version. The standard segment's
      length is checked before it is sliced. */
  function FoodFor(scale: LogScale, data: seq<byte>): (r: Result<FoodOrServing, NutCodeError>)
    ensures r.Success? <==> WellFormedBody(data)
    ensures r.Failure? ==> r.error == UnexpectedEndOfData
    ensures r.Success? ==> r.value.Composition().totalMass == DefaultTotalMass
  {
    var standard :- StandardNutrients(data[..if |data| < |Standard| then |data| else |Standard|]);
    var pairs :- BytePairs(data[|Standard|..]);
    var result := Assemble(scale, standard, pairs);
    AssignKeepsTotal(EmptyFood(), standard + ExtendedNutrients(scale, pairs));
    Success(result)
  }

  /** How running a Swift function can end: a runtime trap, or a return
      (which, for a throwing function, may carry the thrown error). */
  datatype Outcome<T> = Trap | Returned(result: T)

  /** Foundation's `Data.subdata(in: lo..<hi)`. Forming the range traps
      when `hi < lo`. An empty receiver or an empty range gives empty data
      without any bounds check; any other range past the end traps. */
  function Subdata(data: seq<byte>, lo: nat, hi: nat): (o: Outcome<seq<byte>>)
    ensures lo <= hi <= |data| ==> o == Returned(data[lo..hi])
    ensures o.Trap? <==> hi < lo || (lo < hi && 0 < |data| < hi)
    ensures o.Returned? ==> |o.result| <= |data|
  {
    if hi < lo then Trap
    else if |data| == 0 || lo == hi then
      assert hi <= |data| ==> data[lo..hi] == [];
      Returned([])
    else if hi <= |data| then Returned(data[lo..hi])
    else Trap
  }

  /** `food(for:)` as written: the standard segment is sliced with
      `subdata(in: 0..<8)` before `standardNutrients(from:)` checks its
      length. An empty body comes back empty from the slice and the length
      guard rejects it; a body of one to seven bytes traps in the slice. */
  function FoodForAsWritten(scale: LogScale, data: seq<byte>): (o: Outcome<Result<FoodOrServing, NutCodeError>>)
    ensures o.Trap? <==> 0 < |data| < |Standard|
    ensures o.Returned? ==> o.result == FoodFor(scale, data)
  {
    match Subdata(data, 0, |Standard|)
    case Trap => Trap
    case Returned(standardData) =>
      match StandardNutrients(standardData)
      case Failure(e) => Returned(Failure(e))
      case Success(standard) =>
        match Subdata(data, |Standard|, |data|)
        case Trap => Trap
        case Returned(extendedData) =>
          match BytePairs(extendedData)
          case Failure(e) => Returned(Failure(e))
          case Success(pairs) =>
            assert standardData == data[..|Standard|] && extendedData == data[|Standard|..];
            Returned(Success(Assemble(scale, standard, pairs)))
  }

  /** The as-written decoder traps on exactly the bodies of one to seven
      bytes, where the checked one reports an unexpected end of data. On
      every other body the two agree, and the length guard in
      `standardNutrients(from:)` fires only on the empty body. */
  lemma ShortBodyTraps(scale: LogScale, data: seq<byte>)
    ensures FoodForAsWritten(scale, data).Trap? <==> 0 < |data| < |Standard|
    ensures 0 < |data| < |Standard| ==> FoodFor(scale, data) == Failure(UnexpectedEndOfData)
    ensures FoodForAsWritten(scale, []) == Returned(Failure(UnexpectedEndOfData))
    ensures FoodForAsWritten(scale, data).Returned? && FoodForAsWritten(scale, data).result.Failure? ==>
      !WellFormedBody(data) && (|data| == 0 || |data| >= |Standard|)
  {
  }

  /** A body of one byte, from the stream `01 00`, traps as written
      where the checked decoder reports an unexpected end of data; the
      empty body, from the stream `01`, fails cleanly in both. */
  lemma OneByteBodyTraps(scale: LogScale)
    ensures FoodForAsWritten(scale, [0]).Trap?
    ensures FoodFor(scale, [0]) == Failure(UnexpectedEndOfData)
    ensures FoodForAsWritten(scale, []) == Returned(FoodFor(scale, []))
    ensures FoodFor(scale, []) == Failure(UnexpectedEndOfData)
  {
  }

  // ---------------------------------------------------------------------
  // Decoder properties

  /** How one pair is read: a nutrient's code is that nutrient's log
      mass, the serving tag is a linear serving mass, and any other code
      is ignored. */
  lemma ReadPairDispatch(scale: LogScale, p: BytePair)
    ensures forall n :: p.code == Code(n) ==>
      ReadPair(scale, p) == NutrientPair(NutrientMass(n, LogMass(scale, n, p.value)))
    ensures p.code == ServingMassCode ==> ReadPair(scale, p) == ServingPair(LinearMass(p.value))
    ensures (forall n :: p.code != Code(n)) && p.code != ServingMassCode ==> ReadPair(scale, p) == UnknownPair
    ensures ReadPair(scale, p).ServingPair? <==> p.code == ServingMassCode
    ensures ReadPair(scale, p).NutrientPair? ==> Code(ReadPair(scale, p).write.nutrient) == p.code
  {
    FromCodeSound(p.code);
    forall n | p.code == Code(n)
      ensures ReadPair(scale, p) == NutrientPair(NutrientMass(n, LogMass(scale, n, p.value)))
    {
      CodeRoundTrip(n);
    }
    assert FromCode(ServingMassCode) == None;
  }

  /** Dropping the first pair keeps "no pair tagged `code`" and moves the
      last such pair one place down. */
  lemma PairsTail(pairs: seq<BytePair>, code: byte)
    requires |pairs| > 0
    ensures NoPairWith(pairs, code) ==> NoPairWith(pairs[1..], code)
    ensures IsLastPairWith(pairs, code, 0) ==> NoPairWith(pairs[1..], code)
    ensures forall i :: 0 < i && IsLastPairWith(pairs, code, i) ==> IsLastPairWith(pairs[1..], code, i - 1)
  {
    var rest := pairs[1..];
    assert forall j :: 0 <= j < |rest| ==> rest[j] == pairs[j + 1];
  }

  /** The captured serving mass is the linear mass of the last serving
      pair, or the starting value when there is none. */
  lemma {:induction false} ServingSizeLast(scale: LogScale, pairs: seq<BytePair>, current: Option<real>)
    ensures NoPairWith(pairs, ServingMassCode) ==> ServingSize(scale, pairs, current) == current
    ensures forall i :: IsLastPairWith(pairs, ServingMassCode, i) ==>
      ServingSize(scale, pairs, current) == Some(LinearMass(pairs[i].value))
    decreases |pairs|
  {
    if |pairs| > 0 {
      ReadPairDispatch(scale, pairs[0]);
      var next := match ReadPair(scale, pairs[0]) case ServingPair(m) => Some(m) case _ => current;
      ServingSizeLast(scale, pairs[1..], next);
      PairsTail(pairs, ServingMassCode);
    }
  }

  /** Applying the nutrient writes of a pair list leaves each field at the
      log mass of the last pair tagged with its code, or untouched when
      no pair is. */
  lemma ExtendedNutrientsLastWins(scale: LogScale, food: Food, pairs: seq<BytePair>, n: Nutrient)
    ensures Assign(food, ExtendedNutrients(scale, pairs)).totalMass == food.totalMass
    ensures NoPairWith(pairs, Code(n)) ==> Assign(food, ExtendedNutrients(scale, pairs)).Mass(n) == food.Mass(n)
    ensures forall i :: IsLastPairWith(pairs, Code(n), i) ==>
      Assign(food, ExtendedNutrients(scale, pairs)).Mass(n) == LogMass(scale, n, pairs[i].value)
  {
    AssignKeepsTotal(food, ExtendedNutrients(scale, pairs));
    if NoPairWith(pairs, Code(n)) {
      ExtendedNutrientsUntouched(scale, food, pairs, n);
    }
    forall i | IsLastPairWith(pairs, Code(n), i)
      ensures Assign(food, ExtendedNutrients(scale, pairs)).Mass(n) == LogMass(scale, n, pairs[i].value)
    {
      ExtendedNutrientsLastPair(scale, food, pairs, n, i);
    }
  }

  /** The write a single pair makes to `n`: its log mass when the pair
      carries `n`'s code, none otherwise. */
  lemma PairWritesTo(scale: LogScale, p: BytePair, n: Nutrient)
    ensures p.code == Code(n) ==> PairWrites(scale, p) == [NutrientMass(n, LogMass(scale, n, p.value))]
    ensures p.code != Code(n) ==> NoWriteTo(PairWrites(scale, p), n)
  {
    ReadPairDispatch(scale, p);
  }

  /** Splitting the first pair's writes off the rest. */
  lemma ExtendedNutrientsStep(scale: LogScale, food: Food, pairs: seq<BytePair>)
    requires |pairs| > 0
    ensures Assign(food, ExtendedNutrients(scale, pairs))
      == Assign(Assign(food, PairWrites(scale, pairs[0])), ExtendedNutrients(scale, pairs[1..]))
  {
    AssignConcat(food, PairWrites(scale, pairs[0]), ExtendedNutrients(scale, pairs[1..]));
  }

  lemma {:induction false} ExtendedNutrientsUntouched(scale: LogScale, food: Food, pairs: seq<BytePair>, n: Nutrient)
    requires NoPairWith(pairs, Code(n))
    ensures Assign(food, ExtendedNutrients(scale, pairs)).Mass(n) == food.Mass(n)
    decreases |pairs|
  {
    if |pairs| > 0 {
      ExtendedNutrientsStep(scale, food, pairs);
      PairWritesTo(scale, pairs[0], n);
      var head := PairWrites(scale, pairs[0]);
      AssignUntouched(food, head, n);
      PairsTail(pairs, Code(n));
      ExtendedNutrientsUntouched(scale, Assign(food, head), pairs[1..], n);
    }
  }

  lemma {:induction false} ExtendedNutrientsLastPair(scale: LogScale, food: Food, pairs: seq<BytePair>, n: Nutrient, i: int)
    requires IsLastPairWith(pairs, Code(n), i)
    ensures Assign(food, ExtendedNutrients(scale, pairs)).Mass(n) == LogMass(scale, n, pairs[i].value)
    decreases |pairs|
  {
    ExtendedNutrientsStep(scale, food, pairs);
    PairsTail(pairs, Code(n));
    var head := PairWrites(scale, pairs[0]);
    var next := Assign(food, head);
    if i == 0 {
      PairWritesTo(scale, pairs[0], n);
      AssignLastWrite(food, head, n, 0);
      ExtendedNutrientsUntouched(scale, next, pairs[1..], n);
    } else {
      ExtendedNutrientsLastPair(scale, next, pairs[1..], n, i - 1);
    }
  }

  /** The nutrient writes of two lists are those of each in turn. */
  lemma {:induction false} ExtendedNutrientsConcat(scale: LogScale, a: seq<BytePair>, b: seq<BytePair>)
    ensures ExtendedNutrients(scale, a + b) == ExtendedNutrients(scale, a) + ExtendedNutrients(scale, b)
    decreases |a|
  {
    if |a| == 0 {
      assert a + b == b;
    } else {
      assert (a + b)[0] == a[0];
      assert (a + b)[1..] == a[1..] + b;
      ExtendedNutrientsConcat(scale, a[1..], b);
      var h := PairWrites(scale, a[0]);
      assert ExtendedNutrients(scale, a + b) == h + ExtendedNutrients(scale, a[1..] + b);
      assert h + (ExtendedNutrients(scale, a[1..]) + ExtendedNutrients(scale, b))
          == (h + ExtendedNutrients(scale, a[1..])) + ExtendedNutrients(scale, b);
    }
  }

  /** Folding the serving pairs of two lists is folding each in turn. */
  lemma {:induction false} ServingSizeConcat(scale: LogScale, a: seq<BytePair>, b: seq<BytePair>, current: Option<real>)
    ensures ServingSize(scale, a + b, current) == ServingSize(scale, b, ServingSize(scale, a, current))
    decreases |a|
  {
    if |a| == 0 {
      assert a + b == b;
    } else {
      assert (a + b)[1..] == a[1..] + b;
      var next := match ReadPair(scale, a[0]) case ServingPair(m) => Some(m) case _ => current;
      ServingSizeConcat(scale, a[1..], b, next);
    }
  }

  /** A pair whose code is neither a nutrient's nor the serving tag can be
      removed from the stream without changing what is decoded. */
  lemma UnknownPairIgnored(scale: LogScale, standard: seq<NutrientMass>, a: seq<BytePair>, p: BytePair, b: seq<BytePair>)
    requires forall n :: p.code != Code(n)
    requires p.code != ServingMassCode
    ensures Assemble(scale, standard, a + [p] + b) == Assemble(scale, standard, a + b)
  {
    ReadPairDispatch(scale, p);
    UnknownPairNoWrites(scale, a, p, b);
    UnknownPairNoServing(scale, a, p, b, None);
  }

  lemma UnknownPairNoWrites(scale: LogScale, a: seq<BytePair>, p: BytePair, b: seq<BytePair>)
    requires ReadPair(scale, p) == UnknownPair
    ensures ExtendedNutrients(scale, a + [p] + b) == ExtendedNutrients(scale, a + b)
  {
    assert [p][1..] == [];
    assert ExtendedNutrients(scale, [p]) == [];
    ExtendedNutrientsConcat(scale, a + [p], b);
    ExtendedNutrientsConcat(scale, a, [p]);
    ExtendedNutrientsConcat(scale, a, b);
  }

  lemma UnknownPairNoServing(scale: LogScale, a: seq<BytePair>, p: BytePair, b: seq<BytePair>, current: Option<real>)
    requires ReadPair(scale, p) == UnknownPair
    ensures ServingSize(scale, a + [p] + b, current) == ServingSize(scale, a + b, current)
  {
    assert [p][1..] == [];
    var s := ServingSize(scale, a, current);
    assert ServingSize(scale, [p], s) == s;
    ServingSizeConcat(scale, a + [p], b, current);
    ServingSizeConcat(scale, a, [p], current);
    ServingSizeConcat(scale, a, b, current);
  }

  /** Filling a zero food from the standard segment sets each standard
      field to its linear mass and leaves every other field at 0. */
  lemma StandardFill(data: seq<byte>, n: Nutrient)
    requires |data| == |Standard|
    ensures var food := Assign(EmptyFood(), StandardNutrients(data).value);
      && food.totalMass == DefaultTotalMass
      && (forall i :: 0 <= i < |Standard| && Standard[i] == n ==> food.Mass(n) == LinearMass(data[i]))
      && (IsExtended(n) ==> food.Mass(n) == 0.0)
  {
    var standard := StandardNutrients(data).value;
    AssignLastWins(EmptyFood(), standard, n);
    forall i | 0 <= i < |Standard| && Standard[i] == n
      ensures IsLastWriteTo(standard, n, i)
    {
      StandardLastWrite(data, i);
    }
    if IsExtended(n) {
      StandardNoWrite(data, n);
    }
  }

  lemma StandardLastWrite(data: seq<byte>, i: int)
    requires |data| == |Standard| && 0 <= i < |Standard|
    ensures IsLastWriteTo(StandardNutrients(data).value, Standard[i], i)
  {
    StandardAscend();
    AscendingDistinct(Standard);
  }

  lemma StandardNoWrite(data: seq<byte>, n: Nutrient)
    requires |data| == |Standard| && IsExtended(n)
    ensures NoWriteTo(StandardNutrients(data).value, n)
  {
  }

  /** What `food(for:)` returns for a well-formed body with pairs
      `pairs`: a food on the 100 g basis, wrapped as a serving with the
      default description and count exactly when a serving pair is
      present, the last one giving the serving mass. */
  lemma DecodedKind(scale: LogScale, data: seq<byte>, pairs: seq<BytePair>)
    requires |data| >= |Standard| && BytePairs(data[|Standard|..]) == Success(pairs)
    ensures FoodFor(scale, data).Success?
    ensures var v := FoodFor(scale, data).value;
      && v.Composition().totalMass == DefaultTotalMass
      && (NoPairWith(pairs, ServingMassCode) <==> v.FoodValue?)
      && (forall i :: IsLastPairWith(pairs, ServingMassCode, i) ==>
            v == ServingValue(Serving(v.Composition(), LinearMass(pairs[i].value), Some("Serving"), Some(1))))
  {
    var standard := StandardNutrients(data[..|Standard|]).value;
    FoodForAssembles(scale, data, pairs);
    AssembleShape(scale, standard, pairs);
    if !NoPairWith(pairs, ServingMassCode) {
      LastPairExists(pairs, ServingMassCode);
    }
  }

  /** Some pair tagged `code` is the last one so tagged. */
  lemma {:induction false} LastPairExists(pairs: seq<BytePair>, code: byte)
    requires !NoPairWith(pairs, code)
    ensures exists i :: IsLastPairWith(pairs, code, i)
    decreases |pairs|
  {
    var last := |pairs| - 1;
    if pairs[last].code == code {
      assert IsLastPairWith(pairs, code, last);
    } else {
      var front := pairs[..last];
      assert !NoPairWith(front, code) by {
        var k :| 0 <= k < |pairs| && pairs[k].code == code;
        assert front[k] == pairs[k];
      }
      LastPairExists(front, code);
      var i :| IsLastPairWith(front, code, i);
      assert IsLastPairWith(pairs, code, i);
    }
  }

  /** The masses `food(for:)` fills in from a well-formed body with pairs
      `pairs`: a standard field is its linear byte unless a pair names it;
      an extended field is 0 unless a pair names it; and the last pair
      naming a nutrient sets it to that pair's log mass. */
  lemma DecodedMasses(scale: LogScale, data: seq<byte>, pairs: seq<BytePair>)
    requires |data| >= |Standard| && BytePairs(data[|Standard|..]) == Success(pairs)
    ensures FoodFor(scale, data).Success?
    ensures var food := FoodFor(scale, data).value.Composition();
      && (forall i :: 0 <= i < |Standard| && NoPairWith(pairs, Code(Standard[i])) ==>
            food.Mass(Standard[i]) == LinearMass(data[i]))
      && (forall n :: IsExtended(n) && NoPairWith(pairs, Code(n)) ==> food.Mass(n) == 0.0)
      && (forall n, i :: IsLastPairWith(pairs, Code(n), i) ==> food.Mass(n) == LogMass(scale, n, pairs[i].value))
  {
    var prefix := data[..|Standard|];
    var standard := StandardNutrients(prefix).value;
    FoodForAssembles(scale, data, pairs);
    AssembleShape(scale, standard, pairs);
    assert FoodFor(scale, data).value.Composition() == Filled(scale, prefix, pairs);
    FilledMasses(scale, prefix, pairs);
    assert forall i :: 0 <= i < |Standard| ==> prefix[i] == data[i];
  }

  /** The masses of the food filled from a standard segment `prefix` and
      the pairs `pairs`. */
  lemma FilledMasses(scale: LogScale, prefix: seq<byte>, pairs: seq<BytePair>)
    requires |prefix| == |Standard|
    ensures var food := Filled(scale, prefix, pairs);
      && (forall i :: 0 <= i < |Standard| && NoPairWith(pairs, Code(Standard[i])) ==>
            food.Mass(Standard[i]) == LinearMass(prefix[i]))
      && (forall n :: IsExtended(n) && NoPairWith(pairs, Code(n)) ==> food.Mass(n) == 0.0)
      && (forall n, i :: IsLastPairWith(pairs, Code(n), i) ==> food.Mass(n) == LogMass(scale, n, pairs[i].value))
  {
    var food := Filled(scale, prefix, pairs);
    forall i | 0 <= i < |Standard| && NoPairWith(pairs, Code(Standard[i]))
      ensures food.Mass(Standard[i]) == LinearMass(prefix[i])
    {
      var n := Standard[i];
      StandardFill(prefix, n);
      ExtendedNutrientsUntouched(scale, Assign(EmptyFood(), StandardNutrients(prefix).value), pairs, n);
    }
    forall n | IsExtended(n) && NoPairWith(pairs, Code(n))
      ensures food.Mass(n) == 0.0
    {
      StandardFill(prefix, n);
      ExtendedNutrientsUntouched(scale, Assign(EmptyFood(), StandardNutrients(prefix).value), pairs, n);
    }
    forall n, i | IsLastPairWith(pairs, Code(n), i)
      ensures food.Mass(n) == LogMass(scale, n, pairs[i].value)
    {
      ExtendedNutrientsLastPair(scale, Assign(EmptyFood(), StandardNutrients(prefix).value), pairs, n, i);
    }
  }

  /** The food the decoder fills in: a zero food, then the standard
      writes, then the pair writes. */
  function Filled(scale: LogScale, prefix: seq<byte>, pairs: seq<BytePair>): Food
    requires |prefix| == |Standard|
  {
    Assign(Assign(EmptyFood(), StandardNutrients(prefix).value), ExtendedNutrients(scale, pairs))
  }

  /** A well-formed body is split into its standard segment and its pairs
      and assembled. */
  lemma FoodForAssembles(scale: LogScale, data: seq<byte>, pairs: seq<BytePair>)
    requires |data| >= |Standard| && BytePairs(data[|Standard|..]) == Success(pairs)
    ensures FoodFor(scale, data) == Success(Assemble(scale, StandardNutrients(data[..|Standard|]).value, pairs))
  {
  }

  /** `Assemble` fills the standard then the extended writes into a zero
      food, and wraps it as a serving, with the default description and
      count, exactly when a serving pair is present. */
  lemma AssembleShape(scale: LogScale, standard: seq<NutrientMass>, pairs: seq<BytePair>)
    ensures var v := Assemble(scale, standard, pairs);
      var food := Assign(Assign(EmptyFood(), standard), ExtendedNutrients(scale, pairs));
      && v.Composition() == food
      && (NoPairWith(pairs, ServingMassCode) ==> v == FoodValue(food))
      && (forall i :: IsLastPairWith(pairs, ServingMassCode, i) ==>
            v == ServingValue(Serving(food, LinearMass(pairs[i].value), Some("Serving"), Some(1))))
  {
    AssignConcat(EmptyFood(), standard, ExtendedNutrients(scale, pairs));
    ServingSizeLast(scale, pairs, None);
  }
}

=== FILE: foods.dfy ===
/** The record the codec fills in: a food's nutrient masses, and a serving
    of a food. Masses are grams, modelled as exact reals. */
module Foods {
  import opened Wrappers
  import opened Nutrients

  /** The basis the masses are relative to, when nothing else is said. */
  const DefaultTotalMass: real := 100.0

  /** One mass field per nutrient plus `totalMass`. A nutrient without an
      entry in `masses` holds the field default, 0. */
  datatype Food = Food(masses: map<Nutrient, real>, totalMass: real) {

    /** Reading a nutrient's field through its key path. */
    function Mass(n: Nutrient): real {
      if n in masses then masses[n] else 0.0
    }

    /** Writing a nutrient's field through its key path: the written field
        takes the new mass and no other field moves. */
    function WithMass(n: Nutrient, m: real): (r: Food)
      ensures r.Mass(n) == m
      ensures forall k :: k != n ==> r.Mass(k) == Mass(k)
      ensures r.totalMass == totalMass
    {
      Food(masses[n := m], totalMass)
    }
  }

  /** `Food(fat:carbohydrates:protein:)`: the three macronutrients as given,
      every other field 0 and the basis 100 g. */
  function NewFood(fat: real, carbohydrates: real, protein: real): (f: Food)
    ensures f.Mass(FatTotal) == fat
    ensures f.Mass(Carbohydrates) == carbohydrates
    ensures f.Mass(Protein) == protein
    ensures forall n :: n !in {FatTotal, Carbohydrates, Protein} ==> f.Mass(n) == 0.0
    ensures f.totalMass == DefaultTotalMass
  {
    Food(map[FatTotal := fat, Carbohydrates := carbohydrates, Protein := protein], DefaultTotalMass)
  }

  /** A food with every field at its default. */
  function EmptyFood(): (f: Food)
    ensures forall n :: f.Mass(n) == 0.0
    ensures f.totalMass == DefaultTotalMass
  {
    NewFood(0.0, 0.0, 0.0)
  }

  /** A food together with a concrete serving mass. The description and
      count are local fields, never encoded. */
  datatype Serving = Serving(food: Food, mass: real, servingDescription: Option<string>, servingCount: Option<int>)

  /** The memberwise initialiser with the description and count left at
      their defaults. */
  function NewServing(food: Food, mass: real): (s: Serving)
    ensures s.food == food && s.mass == mass
    ensures s.servingDescription == Some("Serving")
    ensures s.servingCount == Some(1)
  {
    Serving(food, mass, Some("Serving"), Some(1))
  }

  /** What decoding produces: a bare food or a serving of one. */
  datatype FoodOrServing = FoodValue(food: Food) | ServingValue(serving: Serving) {
    /** The nutrient composition, whichever variant this is. */
    function Composition(): Food {
      match this
      case FoodValue(f) => f
      case ServingValue(s) => s.food
    }
  }

  /** A nutrient mass to store: one element of the lists the decoder
      collects before filling in a food. */
  datatype NutrientMass = NutrientMass(nutrient: Nutrient, mass: real)

  /** Stores each write, in order, through the nutrient's key path. */
  function Assign(food: Food, writes: seq<NutrientMass>): Food
    decreases |writes|
  {
    if |writes| == 0 then food
    else Assign(food.WithMass(writes[0].nutrient, writes[0].mass), writes[1..])
  }

  predicate NoWriteTo(writes: seq<NutrientMass>, n: Nutrient) {
    forall i :: 0 <= i < |writes| ==> writes[i].nutrient != n
  }

  /** Write `i` is the last one that names `n`. */
  predicate IsLastWriteTo(writes: seq<NutrientMass>, n: Nutrient, i: int) {
    && 0 <= i < |writes|
    && writes[i].nutrient == n
    && forall j :: i < j < |writes| ==> writes[j].nutrient != n
  }

  /** After a list of writes, a field holds the value of the last write
      that names it, or its old value when none does; `totalMass` never
      changes. */
  lemma AssignLastWins(food: Food, writes: seq<NutrientMass>, n: Nutrient)
    ensures Assign(food, writes).totalMass == food.totalMass
    ensures NoWriteTo(writes, n) ==> Assign(food, writes).Mass(n) == food.Mass(n)
    ensures forall i :: IsLastWriteTo(writes, n, i) ==> Assign(food, writes).Mass(n) == writes[i].mass
  {
    AssignKeepsTotal(food, writes);
    if NoWriteTo(writes, n) {
      AssignUntouched(food, writes, n);
    }
    forall i | IsLastWriteTo(writes, n, i) ensures Assign(food, writes).Mass(n) == writes[i].mass {
      AssignLastWrite(food, writes, n, i);
    }
  }

  lemma {:induction false} AssignKeepsTotal(food: Food, writes: seq<NutrientMass>)
    ensures Assign(food, writes).totalMass == food.totalMass
    decreases |writes|
  {
    if |writes| > 0 {
      AssignKeepsTotal(food.WithMass(writes[0].nutrient, writes[0].mass), writes[1..]);
    }
  }

  lemma {:induction false} AssignUntouched(food: Food, writes: seq<NutrientMass>, n: Nutrient)
    requires NoWriteTo(writes, n)
    ensures Assign(food, writes).Mass(n) == food.Mass(n)
    decreases |writes|
  {
    if |writes| > 0 {
      var rest := writes[1..];
      assert NoWriteTo(rest, n) by {
        forall j | 0 <= j < |rest| ensures rest[j].nutrient != n {
          assert rest[j] == writes[j + 1];
        }
      }
      assert writes[0].nutrient != n;
      AssignUntouched(food.WithMass(writes[0].nutrient, writes[0].mass), rest, n);
    }
  }

  lemma {:induction false} AssignLastWrite(food: Food, writes: seq<NutrientMass>, n: Nutrient, i: int)
    requires IsLastWriteTo(writes, n, i)
    ensures Assign(food, writes).Mass(n) == writes[i].mass
    decreases |writes|
  {
    var rest := writes[1..];
    var next := food.WithMass(writes[0].nutrient, writes[0].mass);
    if i == 0 {
      assert NoWriteTo(rest, n) by {
        forall j | 0 <= j < |rest| ensures rest[j].nutrient != n {
          assert rest[j] == writes[j + 1];
        }
      }
      AssignUntouched(next, rest, n);
    } else {
      assert IsLastWriteTo(rest, n, i - 1) by {
        forall j | i - 1 < j < |rest| ensures rest[j].nutrient != n {
          assert rest[j] == writes[j + 1];
        }
      }
      AssignLastWrite(next, rest, n, i - 1);
    }
  }

  /** Writing two lists is writing their concatenation. */
  lemma {:induction false} AssignConcat(food: Food, a: seq<NutrientMass>, b: seq<NutrientMass>)
    ensures Assign(food, a + b) == Assign(Assign(food, a), b)
    decreases |a|
  {
    if |a| > 0 {
      assert (a + b)[1..] == a[1..] + b;
      AssignConcat(food.WithMass(a[0].nutrient, a[0].mass), a[1..], b);
    } else {
      assert a + b == b;
    }
  }
}

=== FILE: nutrients.dfy ===
/** The nutrient catalog: identities, their one-byte codes, the split into
    standard and extended nutrients, and the representable mass bounds. */
module Nutrients {
  import opened Wrappers

  datatype Nutrient =
    | Water
      // standard nutrients
    | FatTotal | Carbohydrates | Protein | Fiber | Sugar
    | FatSaturated | FatMonounsaturated | FatPolyunsaturated
      // extended nutrients
    | Cholesterol | SugarAdded | SugarAlcohols
    | VitaminA | Thiamin | Riboflavin | Niacin | PantothenicAcid | VitaminB6
    | Biotin | VitaminB12 | VitaminC | VitaminD | VitaminE | VitaminK | Folate
    | Calcium | Chloride | Iron | Magnesium | Phosphorus | Potassium | Sodium
    | Zinc | Chromium | Copper | Iodine | Manganese | Molybdenum | Selenium
    | Caffeine | Choline | Fluoride

  /** The nutrient's raw value: the tag it carries on the wire. */
  function Code(n: Nutrient): byte {
    match n
    case Water => 0x00
    case FatTotal => 0x01
    case Carbohydrates => 0x02
    case Protein => 0x03
    case Fiber => 0x04
    case Sugar => 0x05
    case FatSaturated => 0x06
    case FatMonounsaturated => 0x07
    case FatPolyunsaturated => 0x08
    case Cholesterol => 0x09
    case SugarAdded => 0x0A
    case SugarAlcohols => 0x0B
    case VitaminA => 0x20
    case Thiamin => 0x21
    case Riboflavin => 0x22
    case Niacin => 0x23
    case PantothenicAcid => 0x24
    case VitaminB6 => 0x25
    case Biotin => 0x26
    case VitaminB12 => 0x27
    case VitaminC => 0x28
    case VitaminD => 0x29
    case VitaminE => 0x2A
    case VitaminK => 0x2B
    case Folate => 0x2C
    case Calcium => 0x30
    case Chloride => 0x31
    case Iron => 0x32
    case Magnesium => 0x33
    case Phosphorus => 0x34
    case Potassium => 0x35
    case Sodium => 0x36
    case Zinc => 0x37
    case Chromium => 0x38
    case Copper => 0x39
    case Iodine => 0x3A
    case Manganese => 0x3B
    case Molybdenum => 0x3C
    case Selenium => 0x3D
    case Caffeine => 0xD0
    case Choline => 0x2D
    case Fluoride => 0x3E
  }

  /** The failable initialiser from a raw value: the nutrient whose code is
      `c`, if there is one. */
  function FromCode(c: byte): Option<Nutrient> {
    match c
    case 0x00 => Some(Water)
    case 0x01 => Some(FatTotal)
    case 0x02 => Some(Carbohydrates)
    case 0x03 => Some(Protein)
    case 0x04 => Some(Fiber)
    case 0x05 => Some(Sugar)
    case 0x06 => Some(FatSaturated)
    case 0x07 => Some(FatMonounsaturated)
    case 0x08 => Some(FatPolyunsaturated)
    case 0x09 => Some(Cholesterol)
    case 0x0A => Some(SugarAdded)
    case 0x0B => Some(SugarAlcohols)
    case 0x20 => Some(VitaminA)
    case 0x21 => Some(Thiamin)
    case 0x22 => Some(Riboflavin)
    case 0x23 => Some(Niacin)
    case 0x24 => Some(PantothenicAcid)
    case 0x25 => Some(VitaminB6)
    case 0x26 => Some(Biotin)
    case 0x27 => Some(VitaminB12)
    case 0x28 => Some(VitaminC)
    case 0x29 => Some(VitaminD)
    case 0x2A => Some(VitaminE)
    case 0x2B => Some(VitaminK)
    case 0x2C => Some(Folate)
    case 0x2D => Some(Choline)
    case 0x30 => Some(Calcium)
    case 0x31 => Some(Chloride)
    case 0x32 => Some(Iron)
    case 0x33 => Some(Magnesium)
    case 0x34 => Some(Phosphorus)
    case 0x35 => Some(Potassium)
    case 0x36 => Some(Sodium)
    case 0x37 => Some(Zinc)
    case 0x38 => Some(Chromium)
    case 0x39 => Some(Copper)
    case 0x3A => Some(Iodine)
    case 0x3B => Some(Manganese)
    case 0x3C => Some(Molybdenum)
    case 0x3D => Some(Selenium)
    case 0x3E => Some(Fluoride)
    case 0xD0 => Some(Caffeine)
    case _ => None
  }

  /** `FromCode` only recognises a code that really is the returned
      nutrient's code. */
  lemma FromCodeSound(c: byte)
    ensures FromCode(c).Some? ==> Code(FromCode(c).value) == c
  {
    if c < 0x0C {
      FromCodeSoundMacro(c);
    } else if c < 0x30 {
      FromCodeSoundVitamins(c);
    } else if c < 0x40 {
      FromCodeSoundMinerals(c);
    } else {
      FromCodeSoundHigh(c);
    }
  }

  // The code table checked one band of codes at a time, which keeps each
  // case analysis small.

  lemma FromCodeSoundMacro(c: byte)
    requires c < 0x0C
    ensures FromCode(c).Some? ==> Code(FromCode(c).value) == c
  {
  }

  lemma FromCodeSoundVitamins(c: byte)
    requires 0x0C <= c < 0x30
    ensures FromCode(c).Some? ==> Code(FromCode(c).value) == c
  {
  }

  lemma FromCodeSoundMinerals(c: byte)
    requires 0x30 <= c < 0x40
    ensures FromCode(c).Some? ==> Code(FromCode(c).value) == c
  {
  }

  lemma FromCodeSoundHigh(c: byte)
    requires 0x40 <= c
    ensures FromCode(c).Some? ==> Code(FromCode(c).value) == c
  {
  }

  /** Decoding a nutrient's own code gives that nutrient back. */
  lemma CodeRoundTrip(n: Nutrient)
    ensures FromCode(Code(n)) == Some(n)
  {
    if Code(n) < 0x0C {
      CodeRoundTripMacro(n);
    } else if Code(n) < 0x30 {
      CodeRoundTripVitamins(n);
    } else {
      CodeRoundTripMinerals(n);
    }
  }

  lemma CodeRoundTripMacro(n: Nutrient)
    requires Code(n) < 0x0C
    ensures FromCode(Code(n)) == Some(n)
  {
  }

  lemma CodeRoundTripVitamins(n: Nutrient)
    requires 0x0C <= Code(n) < 0x30
    ensures FromCode(Code(n)) == Some(n)
  {
  }

  lemma CodeRoundTripMinerals(n: Nutrient)
    requires 0x30 <= Code(n)
    ensures FromCode(Code(n)) == Some(n)
  {
  }

  /** Every code names at most one nutrient: the raw values are unique. */
  lemma CodesDistinct(n: Nutrient, m: Nutrient)
    ensures Code(n) == Code(m) <==> n == m
  {
    if Code(n) == Code(m) {
      CodeRoundTrip(n);
      CodeRoundTrip(m);
    }
  }

  /** `FromCode` is exactly the inverse of `Code`. */
  lemma FromCodeComplete(c: byte, n: Nutrient)
    ensures FromCode(c) == Some(n) <==> Code(n) == c
  {
    CodeRoundTrip(n);
    FromCodeSound(c);
  }

  /** Tag 0xF0 is reserved for the serving mass. */
  const ServingMassCode: byte := 0xF0

  predicate Distinct(ns: seq<Nutrient>) {
    forall i, j :: 0 <= i < j < |ns| ==> ns[i] != ns[j]
  }

  predicate CodesAscend(ns: seq<Nutrient>) {
    forall i, j :: 0 <= i < j < |ns| ==> Code(ns[i]) < Code(ns[j])
  }

  /** Strictly rising codes never repeat a nutrient. */
  lemma AscendingDistinct(ns: seq<Nutrient>)
    requires CodesAscend(ns)
    ensures Distinct(ns)
  {
  }

  /** The cases whose code is `c` or above, in ascending code order: the
      codes from `c` to 255 decoded, the unassigned ones skipped. */
  function NutrientsFrom(c: nat): seq<Nutrient>
    requires c <= 256
    decreases 256 - c
  {
    if c == 256 then []
    else
      match FromCode(c as byte)
      case Some(n) => [n] + NutrientsFrom(c + 1)
      case None => NutrientsFrom(c + 1)
  }

  /** `NutrientsFrom(c)` holds exactly the nutrients coded `c` or above,
      each once, in ascending code order. */
  lemma NutrientsFromSpec(c: nat)
    requires c <= 256
    ensures forall n :: n in NutrientsFrom(c) <==> c <= Code(n) as int
    ensures CodesAscend(NutrientsFrom(c))
  {
    NutrientsFromMembers(c);
    NutrientsFromAscend(c);
  }

  /** One step of the scan: code `c` contributes its nutrient, if any. */
  lemma NutrientsFromStep(c: nat)
    requires c < 256
    ensures FromCode(c as byte).None? ==> NutrientsFrom(c) == NutrientsFrom(c + 1)
    ensures FromCode(c as byte).Some? ==>
      && NutrientsFrom(c) == [FromCode(c as byte).value] + NutrientsFrom(c + 1)
      && Code(FromCode(c as byte).value) as int == c
  {
    FromCodeSound(c as byte);
  }

  lemma {:induction false} NutrientsFromMembers(c: nat)
    requires c <= 256
    ensures forall n :: n in NutrientsFrom(c) <==> c <= Code(n) as int
    decreases 256 - c
  {
    if c < 256 {
      NutrientsFromMembers(c + 1);
      NutrientsFromStep(c);
      forall n ensures Code(n) as int == c <==> FromCode(c as byte) == Some(n) {
        FromCodeComplete(c as byte, n);
      }
    }
  }

  lemma {:induction false} NutrientsFromAscend(c: nat)
    requires c <= 256
    ensures CodesAscend(NutrientsFrom(c))
    decreases 256 - c
  {
    if c < 256 {
      NutrientsFromAscend(c + 1);
      NutrientsFromMembers(c + 1);
      NutrientsFromStep(c);
      if FromCode(c as byte).Some? {
        PrependAscends(FromCode(c as byte).value, NutrientsFrom(c + 1));
      }
    }
  }

  /** A nutrient coded below everything in an ascending list can go in
      front of it. */
  lemma PrependAscends(head: Nutrient, rest: seq<Nutrient>)
    requires CodesAscend(rest)
    requires forall n :: n in rest ==> Code(head) < Code(n)
    ensures CodesAscend([head] + rest)
  {
    var ns := [head] + rest;
    forall i, j | 0 <= i < j < |ns| ensures Code(ns[i]) < Code(ns[j]) {
      assert ns[j] == rest[j - 1];
      if i > 0 {
        assert ns[i] == rest[i - 1];
      }
    }
  }

  /** Every case of the enumeration, in ascending code order. */
  const AllNutrients: seq<Nutrient> := NutrientsFrom(0)

  /** The catalog lists every nutrient once, sorted by code. */
  lemma CatalogComplete()
    ensures CodesAscend(AllNutrients) && Distinct(AllNutrients)
    ensures forall n :: n in AllNutrients
  {
    NutrientsFromSpec(0);
    AscendingDistinct(AllNutrients);
  }

  /** The eight nutrients written at fixed positions, in wire order. */
  const Standard: seq<Nutrient> :=
    [ FatTotal, Carbohydrates, Protein, Fiber, Sugar,
      FatSaturated, FatMonounsaturated, FatPolyunsaturated ]

  predicate IsStandard(n: Nutrient) {
    n in Standard
  }

  /** Every nutrient that is not standard is extended. */
  predicate IsExtended(n: Nutrient) {
    !IsStandard(n)
  }

  /** The extended nutrients: all cases minus the standard ones. The
      source builds this as an unordered set. */
  function ExtendedSet(): set<Nutrient> {
    set n | n in AllNutrients && !IsStandard(n)
  }

  /** `order` lists every extended nutrient exactly once: one possible
      iteration order of the extended set. */
  predicate EnumeratesExtended(order: seq<Nutrient>) {
    && Distinct(order)
    && (forall n :: n in order <==> IsExtended(n))
  }

  /** The standard nutrients are exactly those with codes 1 through 8. */
  lemma StandardCodes(n: Nutrient)
    ensures IsStandard(n) <==> 1 <= Code(n) <= 8
  {
    if 1 <= Code(n) <= 8 {
      StandardCodesListed(n);
    } else if IsStandard(n) {
      StandardCodesOutside(n);
    }
  }

  lemma StandardCodesOutside(n: Nutrient)
    requires IsStandard(n)
    ensures 1 <= Code(n) <= 8
  {
  }

  /** `Standard` lists its nutrients in code order. */
  lemma StandardAscend()
    ensures CodesAscend(Standard)
  {
    var s := Standard;
    assert forall i :: 0 <= i < |s| ==> Code(s[i]) as int == i + 1;
  }

  lemma StandardCodesListed(n: Nutrient)
    requires 1 <= Code(n) <= 8
    ensures n == Standard[Code(n) - 1]
  {
    var c := Code(n);
    CodeRoundTrip(n);
    if c == 1 {
      assert FromCode(1) == Some(FatTotal);
    } else if c == 2 {
      assert FromCode(2) == Some(Carbohydrates);
    } else if c == 3 {
      assert FromCode(3) == Some(Protein);
    } else if c == 4 {
      assert FromCode(4) == Some(Fiber);
    } else if c == 5 {
      assert FromCode(5) == Some(Sugar);
    } else if c == 6 {
      assert FromCode(6) == Some(FatSaturated);
    } else if c == 7 {
      assert FromCode(7) == Some(FatMonounsaturated);
    } else {
      assert FromCode(8) == Some(FatPolyunsaturated);
    }
  }

  /** Standard and extended nutrients partition the catalog. */
  lemma StandardExtendedPartition()
    ensures Distinct(Standard)
    ensures forall n :: n in Standard ==> n !in ExtendedSet()
    ensures forall n :: n in Standard || n in ExtendedSet()
    ensures forall n :: n in ExtendedSet() <==> IsExtended(n)
  {
    CatalogComplete();
    StandardAscend();
    AscendingDistinct(Standard);
  }

  /** No nutrient uses the reserved serving tag, and no extended nutrient
      uses the code of a standard one. */
  lemma ReservedCodeFree(n: Nutrient)
    ensures Code(n) != ServingMassCode
    ensures IsExtended(n) ==> forall s :: s in Standard ==> Code(n) != Code(s)
  {
    forall s | s in Standard ensures IsExtended(n) ==> Code(n) != Code(s) {
      CodesDistinct(n, s);
    }
  }

  /** The catalog without its standard nutrients, order kept: the
      subtraction that defines the extended list. */
  function WithoutStandard(ns: seq<Nutrient>): (r: seq<Nutrient>)
    ensures |r| <= |ns|
  {
    if |ns| == 0 then []
    else if IsStandard(ns[0]) then WithoutStandard(ns[1..])
    else [ns[0]] + WithoutStandard(ns[1..])
  }

  /** The subtraction keeps exactly the non-standard members and, being a
      subsequence, their ascending code order. */
  lemma {:induction false} WithoutStandardSpec(ns: seq<Nutrient>)
    requires CodesAscend(ns)
    ensures forall n :: n in WithoutStandard(ns) <==> n in ns && IsExtended(n)
    ensures CodesAscend(WithoutStandard(ns))
  {
    if |ns| > 0 {
      var tail := ns[1..];
      assert CodesAscend(tail) by {
        forall i, j | 0 <= i < j < |tail| ensures Code(tail[i]) < Code(tail[j]) {
          assert tail[i] == ns[i + 1] && tail[j] == ns[j + 1];
        }
      }
      WithoutStandardSpec(tail);
      var rest := WithoutStandard(tail);
      assert forall n :: n in ns <==> n == ns[0] || n in tail;
      if IsExtended(ns[0]) {
        var r := WithoutStandard(ns);
        assert r == [ns[0]] + rest;
        forall i, j | 0 <= i < j < |r| ensures Code(r[i]) < Code(r[j]) {
          assert r[j] == rest[j - 1];
          assert r[j] in tail;
          if i > 0 {
            assert r[i] == rest[i - 1];
          }
        }
      }
    }
  }

  /** The extended nutrients in ascending code order: one deterministic
      choice among the orders the source may iterate in. */
  const ExtendedByCode: seq<Nutrient> := WithoutStandard(AllNutrients)

  /** `ExtendedByCode` is a valid extended iteration order. */
  lemma ExtendedByCodeEnumerates()
    ensures CodesAscend(ExtendedByCode)
    ensures EnumeratesExtended(ExtendedByCode)
  {
    CatalogComplete();
    WithoutStandardSpec(AllNutrients);
    AscendingDistinct(ExtendedByCode);
  }

  /** The smallest mass the logarithmic scale can express, in grams. */
  function MinimumRepresentableMass(n: Nutrient): real {
    match n
    case Cholesterol => 0.001
    case VitaminA => 0.000001
    case Thiamin => 0.000001
    case Riboflavin => 0.000001
    case Niacin => 0.00001
    case PantothenicAcid => 0.0001
    case VitaminB6 => 0.000001
    case Biotin => 0.00001
    case VitaminB12 => 0.00000001
    case VitaminC => 0.0001
    case VitaminD => 0.00000001
    case VitaminE => 0.00001
    case VitaminK => 0.0000001
    case Folate => 0.000001
    case Calcium => 0.001
    case Chloride => 0.001
    case Iron => 0.001
    case Magnesium => 0.001
    case Phosphorus => 0.001
    case Potassium => 0.01
    case Sodium => 0.001
    case Zinc => 0.00001
    case Caffeine => 0.001
    case Chromium => 0.0000001
    case Copper => 0.000001
    case Iodine => 0.000001
    case Manganese => 0.00001
    case Molybdenum => 0.0000001
    case Selenium => 0.0000001
    case Choline => 0.001
    case Fluoride => 0.00001
    case _ => 1.0
  }

  /** The largest mass the logarithmic scale can express, in grams. */
  function MaximumRepresentableMass(n: Nutrient): real {
    255.0
  }

  /** Every nutrient has a nonempty positive range ending at 255 g. */
  lemma MassBounds(n: Nutrient)
    ensures 0.0 < MinimumRepresentableMass(n) < MaximumRepresentableMass(n) == 255.0
  {
  }
}

=== FILE: quantize.dfy ===
/** The two byte quantisers: linear for the standard nutrients and the
    serving mass, logarithmic between a nutrient's representable bounds
    for the extended nutrients. */
module Quantize {
  import opened Wrappers
  import opened Nutrients

  /** Float-to-integer conversion: the fraction is dropped, rounding toward
      zero. */
  function Truncate(x: real): (t: int)
    ensures 0.0 <= x ==> t as real <= x < t as real + 1.0
    ensures x < 0.0 ==> t as real - 1.0 < x <= t as real
  {
    if x >= 0.0 then x.Floor else -((-x).Floor)
  }

  /** `UInt8(x)` traps unless the truncated value fits in a byte. */
  predicate ByteRepresentable(x: real) {
    -1.0 < x < 256.0
  }

  function ToByte(x: real): (b: byte)
    requires ByteRepresentable(x)
    ensures b as int == Truncate(x)
  {
    Truncate(x) as byte
  }

  /** `mass(forLinearByte:)`: one byte is that many grams. */
  function LinearMass(b: byte): (m: real)
    ensures 0.0 <= m <= 255.0
    ensures m.Floor == b as int
  {
    b as real
  }

  /** `linearByte(for:)`: whole grams, the fraction dropped. */
  function LinearByte(m: real): (b: byte)
    requires ByteRepresentable(m)
    ensures 0.0 <= m ==> b as real <= m < b as real + 1.0
    ensures m < 0.0 ==> b == 0
  {
    ToByte(m)
  }

  /** A byte survives the trip to a mass and back. */
  lemma LinearByteRoundTrip(b: byte)
    ensures LinearByte(LinearMass(b)) == b
  {
  }

  /** A mass comes back from its byte as its whole number of grams. */
  lemma LinearMassRoundTrip(m: real)
    requires 0.0 <= m < 256.0
    ensures LinearMass(LinearByte(m)) == m.Floor as real
  {
  }

  /** The transcendental functions the logarithmic quantiser is built from,
      supplied by the caller. */
  datatype LogScale = LogScale(log2: real -> real, exp2: real -> real)

  /** Base-2 logarithm grows strictly on the positive reals. */
  ghost predicate Log2Increasing(scale: LogScale) {
    forall x: real, y: real :: 0.0 < x < y ==> scale.log2(x) < scale.log2(y)
  }

  /** `exp2` is positive and `log2` undoes it. */
  ghost predicate Log2UndoesExp2(scale: LogScale) {
    forall t: real :: scale.exp2(t) > 0.0 && scale.log2(scale.exp2(t)) == t
  }

  /** Width of the nutrient's range on the log scale. */
  function LogSpan(scale: LogScale, n: Nutrient): real {
    scale.log2(MaximumRepresentableMass(n)) - scale.log2(MinimumRepresentableMass(n))
  }

  /** Where `m` sits between the nutrient's minimum (0) and maximum (1) on
      the log scale. */
  function LogFraction(scale: LogScale, n: Nutrient, m: real): real
    requires LogSpan(scale, n) != 0.0
  {
    (scale.log2(m) - scale.log2(MinimumRepresentableMass(n))) / LogSpan(scale, n)
  }

  /** `logByte(of:for:)` returns without trapping: the mass is the zero
      sentinel, or it is positive (so `log2` has a value rather than NaN)
      and its scaled fraction fits in a byte. */
  predicate LogByteDefined(scale: LogScale, n: Nutrient, m: real) {
    || m == 0.0
    || (0.0 < m && LogSpan(scale, n) != 0.0 && ByteRepresentable(LogFraction(scale, n, m) * 255.0))
  }

  /** `logByte(of:for:)`: an exact zero is the sentinel byte 0; any other
      mass is its log-scale fraction times 255, truncated. */
  function LogByte(scale: LogScale, n: Nutrient, m: real): (b: byte)
    requires LogByteDefined(scale, n, m)
    ensures m == 0.0 ==> b == 0
    ensures m != 0.0 ==> b as int == Truncate(LogFraction(scale, n, m) * 255.0)
  {
    if m == 0.0 then 0 else ToByte(LogFraction(scale, n, m) * 255.0)
  }

  /** Where byte `b` sits on the log scale of `n`. */
  function LogPosition(scale: LogScale, n: Nutrient, b: byte): real {
    (b as real / 255.0) * LogSpan(scale, n) + scale.log2(MinimumRepresentableMass(n))
  }

  /** `mass(of:forLogByte:)`: `exp2` of the byte's position on the log
      scale. Byte 0 decodes to the minimum, never to 0 (`LogMassOfZero`). */
  function LogMass(scale: LogScale, n: Nutrient, b: byte): real {
    scale.exp2(LogPosition(scale, n, b))
  }

  /** With an exact, increasing logarithm, byte 0 reads back as the
      nutrient's minimum representable mass, which is positive. */
  lemma LogMassOfZero(scale: LogScale, n: Nutrient)
    requires Log2Increasing(scale) && Log2UndoesExp2(scale)
    ensures LogMass(scale, n, 0) == MinimumRepresentableMass(n)
    ensures LogMass(scale, n, 0) > 0.0
  {
    var lo := MinimumRepresentableMass(n);
    MassBounds(n);
    assert LogPosition(scale, n, 0) == scale.log2(lo);
    var y := scale.exp2(scale.log2(lo));
    assert y > 0.0 && scale.log2(y) == scale.log2(lo);
    Log2Injective(scale, y, lo);
  }

  /** An increasing logarithm takes distinct positive inputs to distinct
      values. */
  lemma Log2Injective(scale: LogScale, x: real, y: real)
    requires Log2Increasing(scale)
    requires 0.0 < x && 0.0 < y && scale.log2(x) == scale.log2(y)
    ensures x == y
  {
  }

  lemma LogSpanPositive(scale: LogScale, n: Nutrient)
    requires Log2Increasing(scale)
    ensures LogSpan(scale, n) > 0.0
  {
    MassBounds(n);
  }

  lemma FractionInUnit(a: real, s: real)
    requires 0.0 < s && 0.0 <= a <= s
    ensures 0.0 <= a / s <= 1.0
    ensures a == s ==> a / s == 1.0
  {
    var q := a / s;
    assert q * s == a;
    if a == s {
      assert (q - 1.0) * s == 0.0;
    }
  }

  lemma ScaleUnscale(q: real, s: real)
    requires s != 0.0
    ensures (q * s) / s == q
  {
  }

  /** The representable bounds map to the end bytes: the minimum to 0x00
      and the maximum to 0xFF; every mass between them is encodable. */
  lemma LogByteBounds(scale: LogScale, n: Nutrient, m: real)
    requires Log2Increasing(scale)
    requires MinimumRepresentableMass(n) <= m <= MaximumRepresentableMass(n)
    ensures LogByteDefined(scale, n, m)
    ensures m == MinimumRepresentableMass(n) ==> LogByte(scale, n, m) == 0x00
    ensures m == MaximumRepresentableMass(n) ==> LogByte(scale, n, m) == 0xFF
  {
    MassBounds(n);
    var lo := scale.log2(MinimumRepresentableMass(n));
    var hi := scale.log2(MaximumRepresentableMass(n));
    var x := scale.log2(m);
    assert lo < hi && lo <= x <= hi;
    LogByteBetween(scale, n, m);
  }

  lemma LogByteBetween(scale: LogScale, n: Nutrient, m: real)
    requires 0.0 < MinimumRepresentableMass(n) <= m <= MaximumRepresentableMass(n)
    requires scale.log2(MinimumRepresentableMass(n)) < scale.log2(MaximumRepresentableMass(n))
    requires scale.log2(MinimumRepresentableMass(n)) <= scale.log2(m) <= scale.log2(MaximumRepresentableMass(n))
    ensures LogByteDefined(scale, n, m)
    ensures m == MinimumRepresentableMass(n) ==> LogByte(scale, n, m) == 0x00
    ensures m == MaximumRepresentableMass(n) ==> LogByte(scale, n, m) == 0xFF
  {
    var lo := scale.log2(MinimumRepresentableMass(n));
    var hi := scale.log2(MaximumRepresentableMass(n));
    FractionInUnit(scale.log2(m) - lo, hi - lo);
    assert LogFraction(scale, n, m) == (scale.log2(m) - lo) / (hi - lo);
  }

  /** Every byte survives a decode and a re-encode, when `log2` and
      `exp2` are exact inverses. */
  lemma LogByteRoundTrip(scale: LogScale, n: Nutrient, b: byte)
    requires Log2Increasing(scale) && Log2UndoesExp2(scale)
    ensures LogByteDefined(scale, n, LogMass(scale, n, b))
    ensures LogByte(scale, n, LogMass(scale, n, b)) == b
  {
    LogSpanPositive(scale, n);
    var t := LogPosition(scale, n, b);
    assert scale.exp2(t) > 0.0 && scale.log2(scale.exp2(t)) == t;
    LogByteOfPosition(scale, n, b);
  }

  lemma LogByteOfPosition(scale: LogScale, n: Nutrient, b: byte)
    requires LogSpan(scale, n) > 0.0
    requires scale.exp2(LogPosition(scale, n, b)) > 0.0
    requires scale.log2(scale.exp2(LogPosition(scale, n, b))) == LogPosition(scale, n, b)
    ensures LogByteDefined(scale, n, LogMass(scale, n, b))
    ensures LogByte(scale, n, LogMass(scale, n, b)) == b
  {
    var q := b as real / 255.0;
    var m := LogMass(scale, n, b);
    ScaleUnscale(q, LogSpan(scale, n));
    assert LogFraction(scale, n, m) == q;
    assert q * 255.0 == b as real;
  }
}

=== FILE: roundtrip.dfy ===
/** What survives an encode followed by a decode: the standard masses as
    whole grams, the extended masses as their log bytes, and nothing of
    `totalMass` but its default. Re-encoding the decoded food along the
    same visiting order reproduces the same bytes. */
module RoundTrip {
  import opened Wrappers
  import opened Nutrients
  import opened Foods
  import opened Quantize
  import opened Codec

  /** What an extended field reads back as after its log byte `b` went
      over the wire: the zero sentinel stays 0, any other byte is its log
      mass. */
  function ReadBack(scale: LogScale, n: Nutrient, b: byte): real {
    if b == 0 then 0.0 else LogMass(scale, n, b)
  }

  /** The body of an encoded food: everything after the version byte. */
  function EncodedBody(scale: LogScale, food: Food, order: seq<Nutrient>): seq<byte>
    requires Encodable(scale, food, order)
  {
    Encode(scale, food, order)[1..]
  }

  /** Decoding the body of an encoded food gives a plain food (never a
      serving) on the 100 g basis whose standard masses are the originals
      truncated to whole grams and whose extended masses are read back
      from their log bytes. */
  lemma DecodeEncodedFood(scale: LogScale, food: Food, order: seq<Nutrient>)
    requires Encodable(scale, food, order)
    ensures FoodFor(scale, EncodedBody(scale, food, order)).Success?
    ensures var v := FoodFor(scale, EncodedBody(scale, food, order)).value;
      && v.FoodValue?
      && v.food.totalMass == DefaultTotalMass
      && (forall n :: IsStandard(n) ==> v.food.Mass(n) == Truncate(food.Mass(n)) as real)
      && (forall n :: IsExtended(n) ==>
            v.food.Mass(n) == ReadBack(scale, n, LogByte(scale, n, food.Mass(n))))
  {
    var body := EncodedBody(scale, food, order);
    var pairs := ExtendedPairs(scale, food, order);
    EncodedBodyPairs(scale, food, order);
    DecodedKind(scale, body, pairs);
    DecodedMasses(scale, body, pairs);
    EmittedPairs(scale, food, order);
    var decoded := FoodFor(scale, body).value.Composition();
    forall n | IsStandard(n) ensures decoded.Mass(n) == Truncate(food.Mass(n)) as real {
      var k :| 0 <= k < |Standard| && Standard[k] == n;
      EncodedStandardByte(scale, food, order, k);
    }
    forall n | IsExtended(n)
      ensures decoded.Mass(n) == ReadBack(scale, n, LogByte(scale, n, food.Mass(n)))
    {
      if !NoPairWith(pairs, Code(n)) {
        var i :| 0 <= i < |pairs| && pairs[i].code == Code(n);
        assert IsLastPairWith(pairs, Code(n), i);
      }
    }
  }

  /** The body of an encoded food is its eight standard bytes followed by
      exactly the extended pairs. */
  lemma EncodedBodyPairs(scale: LogScale, food: Food, order: seq<Nutrient>)
    requires Encodable(scale, food, order)
    ensures |EncodedBody(scale, food, order)| >= |Standard|
    ensures BytePairs(EncodedBody(scale, food, order)[|Standard|..]) == Success(ExtendedPairs(scale, food, order))
  {
    var bytes := Encode(scale, food, order);
    EncodedLayout(scale, food, order);
    assert bytes[1..][|Standard|..] == bytes[1 + |Standard|..];
  }

  /** Body byte `k` is the linear byte of the `k`-th standard nutrient. */
  lemma EncodedStandardByte(scale: LogScale, food: Food, order: seq<Nutrient>, k: int)
    requires Encodable(scale, food, order) && 0 <= k < |Standard|
    ensures |EncodedBody(scale, food, order)| > k
    ensures EncodedBody(scale, food, order)[k] == LinearByte(food.Mass(Standard[k]))
    ensures LinearMass(EncodedBody(scale, food, order)[k]) == Truncate(food.Mass(Standard[k])) as real
  {
    var bytes := Encode(scale, food, order);
    var sb := StandardBytes(food);
    assert bytes[1 + k] == sb[k];
  }

  /** Two foods whose extended log bytes agree along `order` emit the same
      extended pairs. */
  lemma {:induction false} ExtendedPairsDependOnBytes(scale: LogScale, f: Food, g: Food, order: seq<Nutrient>)
    requires ExtendedEncodable(scale, f, order) && ExtendedEncodable(scale, g, order)
    requires forall n :: n in order ==> LogByte(scale, n, f.Mass(n)) == LogByte(scale, n, g.Mass(n))
    ensures ExtendedPairs(scale, f, order) == ExtendedPairs(scale, g, order)
    decreases |order|
  {
    if |order| > 0 {
      assert forall m :: m in order[1..] ==> m in order;
      ExtendedPairsDependOnBytes(scale, f, g, order[1..]);
    }
  }

  /** Quantisation is idempotent: when `log2` and `exp2` are exact
      inverses, the decoded food is encodable along the same order and
      encodes to the very same bytes. */
  lemma ReencodeDecoded(scale: LogScale, food: Food, order: seq<Nutrient>)
    requires Encodable(scale, food, order)
    requires Log2Increasing(scale) && Log2UndoesExp2(scale)
    ensures FoodFor(scale, EncodedBody(scale, food, order)).Success?
    ensures var decoded := FoodFor(scale, EncodedBody(scale, food, order)).value.Composition();
      && Encodable(scale, decoded, order)
      && Encode(scale, decoded, order) == Encode(scale, food, order)
  {
    DecodeEncodedFood(scale, food, order);
    var decoded := FoodFor(scale, EncodedBody(scale, food, order)).value.Composition();
    forall n | IsStandard(n)
      ensures ByteRepresentable(decoded.Mass(n))
      ensures LinearByte(decoded.Mass(n)) == LinearByte(food.Mass(n))
    {
      LinearByteOfTruncation(food.Mass(n));
    }
    forall n | IsExtended(n)
      ensures LogByteDefined(scale, n, decoded.Mass(n))
      ensures LogByte(scale, n, decoded.Mass(n)) == LogByte(scale, n, food.Mass(n))
    {
      var b := LogByte(scale, n, food.Mass(n));
      if b != 0 {
        LogByteRoundTrip(scale, n, b);
      }
    }
    assert StandardBytes(decoded) == StandardBytes(food);
    ExtendedPairsDependOnBytes(scale, food, decoded, order);
  }

  /** A whole-gram mass converts to the same byte as the mass it was
      truncated from. */
  lemma LinearByteOfTruncation(m: real)
    requires ByteRepresentable(m)
    ensures ByteRepresentable(Truncate(m) as real)
    ensures LinearByte(Truncate(m) as real) == LinearByte(m)
  {
  }
}

=== FILE: transport.dfy ===
/** The `nut://` URL around the byte stream: `urlify` base64-encodes the
    stream into the host of a `nut` URL, and `parse` undoes that with its
    checks in a fixed order. URL parsing and base64 are Foundation calls;
    they appear here as a record and a pair of supplied functions. */
module Transport {
  import opened Wrappers
  import opened Nutrients
  import opened Foods
  import opened Quantize
  import opened Codec
  import opened RoundTrip

  /** The URL scheme of a nut code. */
  const Scheme: string := "nut"

  /** The two URL components `parse` reads. */
  datatype Url = Url(scheme: Option<string>, host: Option<string>)

  /** Foundation's base64: encoding always succeeds, decoding may reject
      its input. */
  datatype Base64 = Base64(encode: seq<byte> -> string, decode: string -> Option<seq<byte>>)

  /** Decoding undoes encoding. */
  ghost predicate Base64RoundTrips(b64: Base64) {
    forall bytes :: b64.decode(b64.encode(bytes)) == Some(bytes)
  }

  /** `URL(string: "nut://" + text)`, read back as scheme and host. */
  function NutUrl(text: string): Url {
    Url(Some(Scheme), Some(text))
  }

  /** `urlify(_: Food)`. */
  function Urlify(b64: Base64, scale: LogScale, food: Food, order: seq<Nutrient>): Url
    requires Encodable(scale, food, order)
  {
    NutUrl(b64.encode(Encode(scale, food, order)))
  }

  /** `urlify(_: Serving)` as written: the food's stream with an empty list
      appended, so nothing of the serving itself is written. */
  function UrlifyServing(b64: Base64, scale: LogScale, serving: Serving, order: seq<Nutrient>): Url
    requires Encodable(scale, serving.food, order)
  {
    NutUrl(b64.encode(Encode(scale, serving.food, order) + []))
  }

  /** `urlify(_: Serving)` with the serving mass appended as the pair the
      decoder recognises: the serving tag and the linear byte of the
      mass. */
  function UrlifyServingWithMass(b64: Base64, scale: LogScale, serving: Serving, order: seq<Nutrient>): Url
    requires Encodable(scale, serving.food, order) && ByteRepresentable(serving.mass)
  {
    NutUrl(b64.encode(Encode(scale, serving.food, order) + [ServingMassCode, LinearByte(serving.mass)]))
  }

  /** `parse(url:)`: scheme, host, base64, version byte, version number,
      then the body. */
  function Parse(b64: Base64, scale: LogScale, url: Url): (r: Result<FoodOrServing, NutCodeError>)
    ensures url.scheme != Some(Scheme) ==> r == Failure(InvalidScheme)
    ensures url.scheme == Some(Scheme) && url.host.None? ==> r == Failure(MissingData)
    ensures url.scheme == Some(Scheme) && url.host.Some? && b64.decode(url.host.value).None? ==>
      r == Failure(Base64DecodingError)
    ensures url.scheme == Some(Scheme) && url.host.Some? && b64.decode(url.host.value) == Some([]) ==>
      r == Failure(MissingVersion)
    ensures url.scheme == Some(Scheme) && url.host.Some? && b64.decode(url.host.value).Some? ==>
      var bytes := b64.decode(url.host.value).value;
      && (|bytes| > 0 && bytes[0] > Version ==> r == Failure(UnrecognizedVersion))
      && (|bytes| > 0 && bytes[0] <= Version ==> r == FoodFor(scale, bytes[1..]))
    ensures r.Failure? ==> r.error != InternalInconsistency && r.error != UnrecognizedNutrientCode
  {
    if url.scheme != Some(Scheme) then Failure(InvalidScheme)
    else if url.host.None? then Failure(MissingData)
    else
      match b64.decode(url.host.value)
      case None => Failure(Base64DecodingError)
      case Some(bytes) =>
        if |bytes| == 0 then Failure(MissingVersion)
        else if bytes[0] > Version then Failure(UnrecognizedVersion)
        else FoodFor(scale, bytes[1..])
  }

  /** `parse(url:)` as written: the same checks, slicing the body off with
      `subdata(in: 1..<count)` and handing it to the as-written
      `food(for:)`, which traps on a body of one to seven bytes. */
  function ParseAsWritten(b64: Base64, scale: LogScale, url: Url): (o: Outcome<Result<FoodOrServing, NutCodeError>>)
    ensures o.Returned? ==> o.result == Parse(b64, scale, url)
    ensures o.Trap? <==>
      && url.scheme == Some(Scheme) && url.host.Some? && b64.decode(url.host.value).Some?
      && var bytes := b64.decode(url.host.value).value;
         1 < |bytes| < 1 + |Standard| && bytes[0] <= Version
  {
    if url.scheme != Some(Scheme) then Returned(Failure(InvalidScheme))
    else if url.host.None? then Returned(Failure(MissingData))
    else
      match b64.decode(url.host.value)
      case None => Returned(Failure(Base64DecodingError))
      case Some(bytes) =>
        if |bytes| == 0 then Returned(Failure(MissingVersion))
        else if bytes[0] > Version then Returned(Failure(UnrecognizedVersion))
        else
          match Subdata(bytes, 1, |bytes|)
          case Trap => Trap
          case Returned(body) =>
            assert body == bytes[1..];
            FoodForAsWritten(scale, body)
  }

  /** As written, parsing traps exactly when the URL passes every check
      up to the version and carries one to seven bytes after it, where the
      corrected `Parse` reports an unexpected end of data. A stream holding
      only an accepted version byte fails cleanly in both. */
  lemma ParseTrapsOnShortBody(b64: Base64, scale: LogScale, text: string, bytes: seq<byte>)
    requires b64.decode(text) == Some(bytes)
    ensures ParseAsWritten(b64, scale, NutUrl(text)).Trap? <==>
      1 < |bytes| < 1 + |Standard| && bytes[0] <= Version
    ensures 1 < |bytes| < 1 + |Standard| && bytes[0] <= Version ==>
      Parse(b64, scale, NutUrl(text)) == Failure(UnexpectedEndOfData)
    ensures |bytes| == 1 && bytes[0] <= Version ==>
      ParseAsWritten(b64, scale, NutUrl(text)) == Returned(Failure(UnexpectedEndOfData))
  {
    if 0 < |bytes| && bytes[0] <= Version {
      ShortBodyTraps(scale, bytes[1..]);
    }
  }

  /** The stream `01 00` (base64 `AQA=`) traps as written, and the
      corrected `Parse` rejects it with an unexpected end of data. */
  lemma OneByteBodyUrlTraps(b64: Base64, scale: LogScale, text: string)
    requires b64.decode(text) == Some([1, 0])
    ensures ParseAsWritten(b64, scale, NutUrl(text)).Trap?
    ensures Parse(b64, scale, NutUrl(text)) == Failure(UnexpectedEndOfData)
  {
    ParseTrapsOnShortBody(b64, scale, text, [1, 0]);
  }

  /** Versions 0 and 1 are both read as the current format: the body
      decides the result, whatever the version byte below 2. */
  lemma VersionsAccepted(b64: Base64, scale: LogScale, text: string, v: byte, body: seq<byte>)
    requires b64.decode(text) == Some([v] + body)
    requires v <= Version
    ensures Parse(b64, scale, NutUrl(text)) == FoodFor(scale, body)
  {
    assert ([v] + body)[1..] == body;
  }

  /** Parsing the URL of a food gives back a plain food on the 100 g
      basis: standard masses truncated to whole grams, extended masses
      read back from their log bytes. */
  lemma ParseUrlifyFood(b64: Base64, scale: LogScale, food: Food, order: seq<Nutrient>)
    requires Encodable(scale, food, order) && Base64RoundTrips(b64)
    ensures var r := Parse(b64, scale, Urlify(b64, scale, food, order));
      && r.Success?
      && r.value.FoodValue?
      && r.value.food.totalMass == DefaultTotalMass
      && (forall n :: IsStandard(n) ==> r.value.food.Mass(n) == Truncate(food.Mass(n)) as real)
      && (forall n :: IsExtended(n) ==>
            r.value.food.Mass(n) == ReadBack(scale, n, LogByte(scale, n, food.Mass(n))))
  {
    ParseEncoded(b64, scale, food, order);
    DecodeEncodedFood(scale, food, order);
  }

  /** A URL built from an encoded food parses to that food's body. */
  lemma ParseEncoded(b64: Base64, scale: LogScale, food: Food, order: seq<Nutrient>)
    requires Encodable(scale, food, order) && Base64RoundTrips(b64)
    ensures Parse(b64, scale, Urlify(b64, scale, food, order)) == FoodFor(scale, EncodedBody(scale, food, order))
  {
    var bytes := Encode(scale, food, order);
    assert bytes[0] == Version;
    ParseVersioned(b64, scale, bytes);
  }

  /** The URL of any stream that starts with an accepted version byte
      parses to the decoding of the rest of the stream. */
  lemma ParseVersioned(b64: Base64, scale: LogScale, bytes: seq<byte>)
    requires Base64RoundTrips(b64) && |bytes| > 0 && bytes[0] <= Version
    ensures Parse(b64, scale, NutUrl(b64.encode(bytes))) == FoodFor(scale, bytes[1..])
  {
    assert b64.decode(b64.encode(bytes)) == Some(bytes);
  }

  /** As written, a serving's URL is its food's URL: the serving mass, the
      description and the count are all lost, and parsing gives back a
      plain food. */
  lemma ServingEncodingIgnoresServing(b64: Base64, scale: LogScale, serving: Serving, order: seq<Nutrient>)
    requires Encodable(scale, serving.food, order) && Base64RoundTrips(b64)
    ensures UrlifyServing(b64, scale, serving, order) == Urlify(b64, scale, serving.food, order)
    ensures Parse(b64, scale, UrlifyServing(b64, scale, serving, order)).Success?
    ensures Parse(b64, scale, UrlifyServing(b64, scale, serving, order)).value.FoodValue?
  {
    assert Encode(scale, serving.food, order) + [] == Encode(scale, serving.food, order);
    ParseUrlifyFood(b64, scale, serving.food, order);
  }

  /** With the serving pair appended, parsing gives back a serving of the
      same decoded food, its mass truncated to whole grams, and the
      default description and count. */
  lemma ParseUrlifyServingWithMass(b64: Base64, scale: LogScale, serving: Serving, order: seq<Nutrient>)
    requires Encodable(scale, serving.food, order) && ByteRepresentable(serving.mass)
    requires Base64RoundTrips(b64)
    ensures FoodFor(scale, EncodedBody(scale, serving.food, order)).Success?
    ensures Parse(b64, scale, UrlifyServingWithMass(b64, scale, serving, order))
      == Success(ServingValue(Serving(
           FoodFor(scale, EncodedBody(scale, serving.food, order)).value.Composition(),
           Truncate(serving.mass) as real, Some("Serving"), Some(1))))
  {
    var base := EncodedBody(scale, serving.food, order);
    var tag := BytePair(ServingMassCode, LinearByte(serving.mass));
    ParseServingUrl(b64, scale, serving, order);
    EncodedBodyPairs(scale, serving.food, order);
    ServingPairAppended(scale, base, ExtendedPairs(scale, serving.food, order), tag);
  }

  /** The serving URL parses to the food's body followed by the serving
      pair. */
  lemma ParseServingUrl(b64: Base64, scale: LogScale, serving: Serving, order: seq<Nutrient>)
    requires Encodable(scale, serving.food, order) && ByteRepresentable(serving.mass)
    requires Base64RoundTrips(b64)
    ensures Parse(b64, scale, UrlifyServingWithMass(b64, scale, serving, order))
      == FoodFor(scale, EncodedBody(scale, serving.food, order) + [ServingMassCode, LinearByte(serving.mass)])
  {
    var encoded := Encode(scale, serving.food, order);
    var bytes := encoded + [ServingMassCode, LinearByte(serving.mass)];
    assert encoded[0] == Version;
    assert bytes[0] == Version;
    ParseVersioned(b64, scale, bytes);
    assert bytes[1..] == encoded[1..] + [ServingMassCode, LinearByte(serving.mass)];
  }

  /** Appending the serving pair to a well-formed body wraps the same food
      as a serving of that pair's linear mass. */
  lemma ServingPairAppended(scale: LogScale, base: seq<byte>, pairs: seq<BytePair>, tag: BytePair)
    requires |base| >= |Standard| && BytePairs(base[|Standard|..]) == Success(pairs)
    requires tag.code == ServingMassCode
    ensures FoodFor(scale, base).Success?
    ensures FoodFor(scale, base + [tag.code, tag.value])
      == Success(ServingValue(Serving(FoodFor(scale, base).value.Composition(),
           LinearMass(tag.value), Some("Serving"), Some(1))))
  {
    var body := base + [tag.code, tag.value];
    var all := pairs + [tag];
    FlattenAppend(pairs, [tag]);
    BytePairsFlatten(pairs);
    BytePairsFlatten(all);
    assert body[|Standard|..] == base[|Standard|..] + [tag.code, tag.value];
    assert Flatten([tag]) == [tag.code, tag.value];
    assert BytePairs(body[|Standard|..]) == Success(all);
    var prefix := base[..|Standard|];
    assert body[..|Standard|] == prefix;
    var standard := StandardNutrients(prefix).value;
    FoodForAssembles(scale, base, pairs);
    FoodForAssembles(scale, body, all);
    ReadPairDispatch(scale, tag);
    assert ExtendedNutrients(scale, [tag]) == [] by {
      assert [tag][1..] == [];
    }
    ExtendedNutrientsConcat(scale, pairs, [tag]);
    assert ExtendedNutrients(scale, all) == ExtendedNutrients(scale, pairs);
    AssembleShape(scale, standard, pairs);
    AssembleShape(scale, standard, all);
    assert IsLastPairWith(all, ServingMassCode, |all| - 1);
  }

  /** The description and count of a serving are local: they never change
      its URL. */
  lemma ServingLocalFieldsNotEncoded(b64: Base64, scale: LogScale, serving: Serving, order: seq<Nutrient>,
                                     description: Option<string>, count: Option<int>)
    requires Encodable(scale, serving.food, order) && ByteRepresentable(serving.mass)
    ensures var other := serving.(servingDescription := description, servingCount := count);
      && UrlifyServing(b64, scale, other, order) == UrlifyServing(b64, scale, serving, order)
      && UrlifyServingWithMass(b64, scale, other, order) == UrlifyServingWithMass(b64, scale, serving, order)
  {
  }
}

=== FILE: wrappers.dfy ===
/** Option and Result types used for the codec's optional values and thrown errors. */
module Wrappers {

  /** An unsigned 8-bit value (Swift `UInt8`). */
  newtype byte = b: int | 0 <= b < 256

  /** A value that may be absent (Swift's optionals). */
  datatype Option<+T> = None | Some(value: T)

  /** A computation that either produces a value or fails with an error
      (Swift's `throws`). Supports Dafny's `:-` early return. */
  datatype Result<+T, +E> = Success(value: T) | Failure(error: E) {
    predicate IsFailure() {
      Failure?
    }

    function PropagateFailure<U>(): Result<U, E>
      requires Failure?
    {
      Failure(error)
    }

    function Extract(): T
      requires Success?
    {
      value
    }
  }
}
